=== FILE: README.md ===
# ElemNote AI — a Dafny model of the request handling core

ElemNote AI lets a student upload study material and ask a question about it.
The answer comes back as text and as speech. The repository has two back ends
and one browser script. This project models the core of all three, mostly as pure
Dafny functions (the loops of `b64toBlob` are methods), and proves properties
about them:

- **`POST /api/process`** (server.js, Express) validates the multipart
  request. It dispatches on the upload's media type, builds a prompt that
  quotes at most 15000 characters of the document, calls Gemini and then
  Text-to-Speech, and answers with the text and the base64 of the MP3. It
  also removes the uploaded file.
- **The Flask back end** (app.py) keeps two globals. `processed_document_text`
  holds the last accepted document. `temp_audio_files` maps audio file names
  to temporary paths.
  - `upload_and_process` extracts text from a PDF, DOCX or TXT upload and
    stores it. It asks Gemini to acknowledge the document, speaks the answer
    with gTTS, and returns an audio URL.
  - `query_ai` asks Gemini about the stored document.
  - `serve_audio` sends a registered audio file.
- **The browser script** (public/script.js). Its submit handler trims the
  query, validates the form, resets the page, posts the form and shows the
  outcome. `b64toBlob` decodes the base64 audio with `atob` and packs the
  bytes into a Blob, one Uint8Array per 512-character slice.

External calls are not modelled. These are text extraction, Gemini, TTS,
gTTS, the file system and `fetch`. Their outcomes become parameters of the
handlers: an `Ok(value)` or the `Err(message)` of the exception they raise.
The Flask upload and query handlers return the response, the external calls
made (in order) and the new globals; `serve_audio` only reads the globals and
returns its reply. The Express handler returns the response, its calls, and
whether an error escaped it after the response was sent. Base64 encoding follows section 4 of RFC 4648, as
Node's `Buffer.toString('base64')` does. `atob` follows the forgiving-base64
decode of the WHATWG Infra standard.

Modules:
- `Common`: Option, Result and byte.
- `Strings`: JavaScript `trim`, Python `strip`, `basename` and `splitext`.
- `Base64`: the encoder and `atob`.
- `Server`: server.js.
- `FlaskApp`: app.py.
- `Client`: script.js.
- `EndToEnd`: the page, server.js and back, end to end. Validation and cleanup of a sent form are stated for server.js as written. The page's outcome is stated against the single-cleanup `Server.Process`. Only response facts carry over to the code as written, by `Server.SameResponses`.

## Model

| member | source | states |
|---|---|---|
| Strings.Take | server.js:79 | `substring(0, n)` / `s[:n]` gives a prefix of s whose length is the smaller of n and the length of s |
| Strings.LeadingSpace | public/script.js:15 | counts the run of leading whitespace: all of it is whitespace and the next character is not |
| Strings.TrailingStart | public/script.js:15 | start of the run of trailing whitespace: all of it is whitespace and the character before it is not |
| Strings.TrimBounds | app.py:114 | trim bounds: everything before `lo` and from `hi` on is whitespace, and both ends of the kept part are not |
| Strings.Trim | public/script.js:15 | `trim()`/`strip()` keeps exactly the slice between the blank prefix and the blank suffix, and its ends are not whitespace |
| Strings.TrimEmptyIffAllSpace | app.py:114 | trimming gives "" exactly when every character is whitespace (the `not text.strip()` and `!userQuery` tests) |
| Strings.LowerAscii | app.py:102 | lower-casing keeps the length, maps each ASCII capital to its small letter, and leaves every other character alone |
| Strings.LastIndex | app.py:102 | the last position of a character, or -1; no later position holds it |
| Strings.LastIndexIs | app.py:102 | a position that holds c, with no c after it, is the last index |
| Strings.Basename | app.py:83 | `os.path.basename` is a suffix of the path and contains no '/' |
| Strings.BasenameAfterSlash | app.py:83 | a base name shorter than its path comes right after a '/' |
| Strings.BasenameOfJoin | app.py:83 | the base name of a directory, '/', and a name without '/' is that name |
| Strings.Extension | app.py:102 | `splitext(...)[1]` is a suffix that starts with '.' and has no further '.' or '/'; it is non-empty exactly when the last component has a dot preceded by a character other than '.' |
| Strings.ExtensionOfStem | app.py:102 | a stem with no '/' and not only dots, followed by a '.'-led extension without further '.' or '/', splits off exactly that extension |
| Strings.ExtensionExamples | app.py:102 | case is kept, only the last dot counts, and leading dots or dots in directory names start no extension |
| Base64.CharOf | server.js:104 | every 6-bit value maps to an alphabet character |
| Base64.ValueOf | public/script.js:88 | every alphabet character decodes to a 6-bit value |
| Base64.ValueOfCharOf | public/script.js:88 | decoding a character undoes its encoding |
| Base64.CharOfValueOf | server.js:104 | encoding a character's value gives the character back |
| Base64.Quantum | server.js:104 | three bytes encode to four alphabet characters |
| Base64.EncodeUnpadded | server.js:104 | unpadded output uses only the alphabet; 4 characters per full group and 2 or 3 for a partial one |
| Base64.Encode | server.js:104 | padded output is 4·ceil(n/3) characters, a multiple of 4, and empty only for empty input |
| Base64.RemoveAsciiWhitespace | public/script.js:88 | removes every ASCII whitespace character and leaves a string without any unchanged |
| Base64.StripPadding | public/script.js:88 | removing the '=' padding leaves a prefix |
| Base64.Group | public/script.js:88 | four 6-bit values decode to three bytes |
| Base64.DecodeUnpadded | public/script.js:88 | n characters decode to 3n/4 bytes (partial last group discarded) |
| Base64.BinaryString | public/script.js:88 | `atob`'s result has one character per byte, with that byte as its code |
| Base64.Atob | public/script.js:88 | a successful `atob` gives only characters below 256 |
| Base64.GroupOfQuantum | server.js:104 | the 6-bit values of three bytes regroup to those bytes |
| Base64.QuantumValues | server.js:104 | the characters of a quantum decode to the 6-bit values of its bytes |
| Base64.DecodeFullGroup | public/script.js:88 | a full leading group decodes by itself, ahead of the rest |
| Base64.DecodeQuantum | public/script.js:88 | decoding a quantum followed by more text gives its three bytes, then the rest |
| Base64.DecodeTail1 | public/script.js:88 | one trailing byte survives the 2-character tail |
| Base64.DecodeTail2 | public/script.js:88 | two trailing bytes survive the 3-character tail |
| Base64.DecodeEncodeUnpadded | public/script.js:88 | decoding the unpadded encoding gives the bytes back |
| Base64.EncodeHasNoWhitespace | server.js:104 | encoded text has no ASCII whitespace for `atob` to remove |
| Base64.StripPaddingOfEncode | server.js:104 | stripping the padding of an encoding gives the unpadded encoding |
| Base64.AtobEncode | public/script.js:88 | `atob` of the server's base64 succeeds and gives the binary string of the original bytes |
| Base64.EncodeInjective | server.js:104 | different audio gives different base64 |
| Server.KindOf | server.js:59-73 | the if/else-if chain: PDF, plain text or DOCX exactly for their media type strings; anything else is unsupported |
| Server.Excerpt | server.js:79 | keeps a prefix of 15000 characters, or all of a shorter text |
| Server.FullPrompt | server.js:76-82 | the prompt starts with its header, ends with "Now, " and the query, and its length counts only the excerpt |
| Server.AiContents | server.js:85-93 | Gemini gets one user entry: the persona, then the prompt |
| Server.SpeechRequestFor | server.js:98-102 | TTS is asked to speak exactly the answer |
| Server.TryBlock | server.js:57-110 | the docx and unsupported branches unlink and give 400; other paths never unlink; 200 exactly when extraction, Gemini and TTS all succeed |
| Server.UnlinkCount | server.js:114 | counts unlinks of a path; never more than the calls made |
| Server.UnlinkCountAppend | server.js:111-116 | unlink counts add up over concatenated call logs |
| Server.NoUnlinkCount | server.js:57-106 | a call log with no unlink counts zero for every path |
| Server.ProcessAsWritten | server.js:48-117 | as written: validation failures call nothing; an error escapes exactly for a docx or unsupported upload with a query; a PDF or text upload with a query is unlinked once, last |
| Server.AsWrittenUnlinksTwice | server.js:68-114 | as written, a docx or unsupported upload is unlinked twice and the handler throws after its 400 |
| Server.AsWrittenZipExample | server.js:70-72 | a zip upload gets the unsupported 400, two unlinks, and an escaped error |
| Server.AsWrittenLeaksOnEmptyQuery | server.js:52-54 | as written, an upload with an empty query is never removed |
| Server.Process | server.js:48-117 | with single cleanup: a present upload is unlinked exactly once, as the last call; nothing escapes; status is 200, 400 or 500 |
| Server.SameResponses | server.js:48-117 | the corrected handler gives the same responses as the code as written, and the same calls without a file and on the PDF and text paths |
| Server.OnlyPdfAndTextReachPrompt | server.js:59-73 | docx and other types get their own 400 and only the cleanup call; PDF and text are read first |
| Server.BlankQueryAccepted | server.js:52-58 | every non-empty query, whitespace-only included, passes server validation, and a PDF or text upload goes on to extraction |
| Server.SuccessShape | server.js:85-106 | 200 exactly when a PDF or text upload with a query has all three calls succeed; the exact body and call sequence |
| Server.ErrorBodies | server.js:49-110 | every non-200 reply carries one of the fixed, non-empty error messages |
| Server.FailureShape | server.js:108-110 | the first failing call gives 500 with its message as details, and no later service is called |
| Server.PromptBounds | server.js:79 | the prompt quotes the excerpt after its header; at most 15000 characters, exactly 15000 for a longer text |
| Server.PromptIgnoresTail | server.js:79 | text past 15000 characters does not affect the prompt |
| Server.PromptDeterminesQuery | server.js:82 | different queries give different prompts |
| FlaskApp.PdfText | app.py:64-69 | the text of one page is that page's text, or "" when it is falsy; every page's text fits inside the whole |
| FlaskApp.PdfTextAppend | app.py:64-69 | page texts accumulate in order: the text of two runs of pages is the first run's text followed by the second's |
| FlaskApp.JoinLines | app.py:72-74 | one paragraph is returned as is |
| FlaskApp.JoinLinesLength | app.py:74 | the joined length is the paragraphs' total length plus one newline per neighbouring pair |
| FlaskApp.JoinLinesAppend | app.py:74 | joining two non-empty runs of paragraphs gives the first run's text, one newline, then the second's: the paragraphs appear in order with "\n" between neighbours |
| FlaskApp.KindOfExtension | app.py:105-112 | PDF, DOCX or TXT exactly for ".pdf", ".docx" or ".txt" |
| FlaskApp.KindOfName | app.py:102-112 | PDF, DOCX or TXT exactly when the lower-cased extension is ".pdf", ".docx" or ".txt" |
| FlaskApp.AckPrompt | app.py:117 | the acknowledgement prompt is its header, then the first 500 characters, then "...\n```" |
| FlaskApp.QueryPrompt | app.py:143 | the query prompt holds the whole stored text right after its header, untruncated, and ends with the query |
| FlaskApp.GenerateSpeech | app.py:77-85 | registers the basename of the new mp3 for its path, keeps every other entry, and registers nothing when gTTS fails |
| FlaskApp.UploadAndProcess | app.py:91-131 | the registry never loses a name; status is 200, 400 or 500, with an error body unless 200; the stored text changes only for an accepted extension |
| FlaskApp.QueryAi | app.py:133-156 | never changes the stored text; the registry never loses a name; status is 200, 400 or 500 |
| FlaskApp.ServeAudio | app.py:158-164 | 200 with audio/mpeg exactly when the name is registered to a non-empty path that exists; otherwise 404 |
| FlaskApp.RegistryOnlyGrows | app.py:84 | no sequence of requests removes a registered audio name |
| FlaskApp.DocumentChangesOnlyByAcceptedUpload | app.py:105-110 | without an upload of an accepted type, the stored document never changes |
| FlaskApp.UploadValidation | app.py:94-112 | a missing part, an empty filename, or, once the part was read, an unsupported extension gives its 400, changes nothing and calls nothing |
| FlaskApp.UpperCaseExtensionAccepted | app.py:102 | "NOTES.PDF" is read as a PDF |
| FlaskApp.LowerExamples | app.py:102 | lower-casing maps the three accepted extensions, in either case, to their lower-case form |
| FlaskApp.LowerCaseDispatch | app.py:102-112 | a file name of stem and extension dispatches on the lower-cased extension |
| FlaskApp.AcceptedExtensions | app.py:102-112 | for every stem, the lower- and upper-case forms of ".pdf", ".docx" and ".txt" select the PDF, DOCX and TXT readers |
| FlaskApp.LastExtensionDecides | app.py:102 | "notes.txt.zip" is unsupported |
| FlaskApp.BlankDocumentStoredThenRejected | app.py:105-115 | blank text gets the 400, but only after it has replaced the stored document; no service is called |
| FlaskApp.QueryAfterBlankUploadIsAccepted | app.py:136-146 | after a blank " " upload, `query_ai` sends the whitespace document to Gemini |
| FlaskApp.UploadSucceedsIff | app.py:91-131 | 200 exactly when the part is named and readable, the extension accepted, the text not blank, and Gemini and gTTS succeed |
| FlaskApp.UploadSuccess | app.py:114-128 | on success: the text is stored, the prompt quotes it, the answer is spoken, its mp3 is registered, and the reply carries answer and URL |
| FlaskApp.UploadedAudioIsServed | app.py:122-162 | the audio URL of a successful upload is served while the file exists |
| FlaskApp.UploadFailures | app.py:103-131 | a failing read or extraction gives 500 with the prefixed message, calls nothing and leaves the state alone; a Gemini or gTTS failure gives 500 with its prefixed message after the text was stored, with the calls made so far |
| FlaskApp.QueryBehaviour | app.py:136-156 | 400 without a document or query; otherwise the prompt holds the whole text, failures give 500 with the prefixed message, and success returns the answer and the URL of the newly registered mp3 |
| FlaskApp.UnregisteredAudioNotFound | app.py:160-164 | an unregistered name gets 404 |
| Client.Uint8 | public/script.js:94-99 | `new Uint8Array` of char codes: same length, each code modulo 256 |
| Client.SliceBytes | public/script.js:91-101 | one Uint8Array per slice |
| Client.ChunksConcat | public/script.js:91-92 | the slices, concatenated, are the decoded string |
| Client.ChunksShape | public/script.js:91-92 | ceil(n/512) slices, each non-empty and at most 512 long, all but the last full |
| Client.SliceBytesConcat | public/script.js:91-101 | the Uint8Arrays of the slices, concatenated, are the Uint8Array of the whole string |
| Client.BlobBytes | public/script.js:87-105 | the Blob holds exactly the bytes `atob` decoded, in order |
| Client.ChunkStep | public/script.js:91-92 | the slices from an offset are the slice at it, then the slices from the next offset |
| Client.SliceToUint8 | public/script.js:94-99 | the inner loop gives the Uint8Array of the slice |
| Client.B64ToBlob | public/script.js:87-105 | the loop builds the Blob of the slice reference definition; None when `atob` throws |
| Client.Submit | public/script.js:11-34 | a rejected submission only shows an error; a sent one carries the file and the trimmed query and resets the page |
| Client.SubmitSendsIff | public/script.js:14-24 | sent exactly when a file is picked and the query is not all whitespace; the sent query is non-empty and trimmed |
| Client.Settle | public/script.js:36-65 | loading always ends; an error shows exactly when the reply is not a parsable 2xx with decodable audio; audio changes only to the reply's Blob or to none |
| Client.SettleSuccess | public/script.js:47-58 | a 2xx shows `aiResponse` ("" when absent) and, without audio, leaves no source and no error |
| Client.SettleError | public/script.js:42-44 | a non-2xx shows `error`, or the fallback when it is empty or absent, and leaves text and audio alone |
| EndToEnd.Delivered | server.js:106-110 | the page reads the handler's status and JSON body |
| EndToEnd.Uint8OfBinaryString | public/script.js:96-99 | the char codes of a binary string are its bytes |
| EndToEnd.SentFormsPassValidation | server.js:49-114 | for server.js as written, a sent form never hits the missing-file or missing-query 400; a PDF or text upload is then removed once, and a docx or other upload twice, with an escaped error |
| EndToEnd.SuccessReachesPage | public/script.js:47-58 | a 200 shows Gemini's answer with no error and plays a Blob of exactly the synthesized bytes (none for empty audio) |
| EndToEnd.ErrorReachesPage | public/script.js:42-44 | a failed request shows the handler's own non-empty message and keeps the placeholder and no audio |

## Left out

- Text extraction (pdf-parse, PyPDF2, python-docx), Gemini, Google Cloud TTS and gTTS are not modelled. Their outcomes are parameters, and an exception becomes an `Err` with its message.
- The file system is left out. Multer's storage of the upload is the `path` parameter. `fs.unlinkSync` is a recorded call. `os.path.exists` is the `onDisk` set.
- HTTP routing, multipart and JSON parsing, `fetch`, and the DOM are left out. A request is reduced to the fields the handlers read. The page is reduced to the elements the submit handler writes.
- Repeated form fields are left out, and so are JSON values that are not strings. `query_ai` on a request body that is not JSON is left out too. With a stored document, `request.json` fails at app.py:139, after the test at app.py:136 and outside the `try`; without one, the handler's own 400 comes first.
- Concurrent requests and the globals shared between them are left out. `FlaskApp.Run` handles requests one at a time.
- The persona system prompt is a parameter, not its literal text.
- Logging is left out: `console.error` at server.js:109 and `print` at app.py:130 and app.py:155 write to the console only and do not change any reply or state.
- Strings are sequences of abstract characters. JavaScript counts UTF-16 code units and Python counts code points. The two differ only for characters outside the Basic Multilingual Plane. In `substring(0, 15000)` and `[:500]` such characters would shift the cut.
- Strings.LowerAscii: lower-cases ASCII letters only, where Python's `lower()` covers all of Unicode. Only ".pdf", ".docx" and ".txt" are compared. The only non-ASCII characters whose `lower()` contains an ASCII letter are KELVIN SIGN ('k') and U+0130 ('i' followed by U+0307). None of ".pdf", ".docx" and ".txt" contains 'k' or 'i', so the dispatch is the same.
- Client.B64ToBlob: requires `sliceSize > 0`. With 0 the loop never ends on a non-empty string. The script only uses the default 512.
- The message of the exception `atob` throws is browser-specific. It is the `atobError` parameter of `Client.Settle`.
- `play()`, `URL.createObjectURL` and the loading indicator's styling are left out. Playing is represented by the audio source being a Blob.
- The Gemini model configuration and the gTTS language are left out. Flask's `system_instruction` is fixed at start-up and is not part of a request.
- One gTTS failure is not modelled: a failure in `tts.save` after the temporary file was created. It leaves that file on disk unregistered, and the model registers nothing.
- server.js tests only `!req.body.userQuery` (server.js:52). Only the browser trims (public/script.js:15). `Server.BlankQueryAccepted` shows that a whitespace-only query passes the server.

## Findings

| source | as written | input that shows it | evidently intended | confidence | as-written member | corrected member |
|---|---|---|---|---|---|---|
| server.js:68-114 | the docx and unsupported branches call `fs.unlinkSync` and return, and the `finally` calls it again on the removed file | a `application/zip` upload with query "Summarize this.": two unlinks of the same path, the second throws ENOENT after the 400 was sent (`Server.AsWrittenZipExample`, `Server.AsWrittenUnlinksTwice`) | the upload is removed exactly once and nothing escapes the handler | not executed | Server.ProcessAsWritten | Server.Process |
| server.js:52-54 | the missing-query return comes before the `try`, so its `finally` never runs | an upload with an empty `userQuery`: 400 and no unlink, the file stays in uploads/ (`Server.AsWrittenLeaksOnEmptyQuery`) | every upload is removed once the request is answered | not executed | Server.AsWrittenLeaksOnEmptyQuery | Server.Process |

=== FILE: base64.dfy ===
/** The base64 text that carries the synthesized audio from server to browser:
    the encoder behind Node.js `Buffer.toString('base64')` (the padded
    alphabet of section 4 of RFC 4648) and the decoder behind the browser's
    `atob` (the forgiving-base64 decode algorithm of the WHATWG Infra
    Standard), which returns a "binary string" of characters U+0000..U+00FF. */
module Base64 {
  import opened Common

  // ---------------------------------------------------------------------------
  // Alphabet

  /** The character that encodes the 6-bit value v. */
  function CharOf(v: int): (c: char)
    requires 0 <= v < 64
    ensures IsBase64Char(c)
  {
    if v < 26 then ('A' as int + v) as char
    else if v < 52 then ('a' as int + (v - 26)) as char
    else if v < 62 then ('0' as int + (v - 52)) as char
    else if v == 62 then '+'
    else '/'
  }

  predicate IsBase64Char(c: char) {
    ('A' <= c <= 'Z') || ('a' <= c <= 'z') || ('0' <= c <= '9') || c == '+' || c == '/'
  }

  /** The 6-bit value a base64 character stands for; inverse of CharOf. */
  function ValueOf(c: char): (v: int)
    requires IsBase64Char(c)
    ensures 0 <= v < 64
  {
    if 'A' <= c <= 'Z' then c as int - 'A' as int
    else if 'a' <= c <= 'z' then c as int - 'a' as int + 26
    else if '0' <= c <= '9' then c as int - '0' as int + 52
    else if c == '+' then 62
    else 63
  }

  lemma ValueOfCharOf(v: int)
    requires 0 <= v < 64
    ensures ValueOf(CharOf(v)) == v
  {
  }

  lemma CharOfValueOf(c: char)
    requires IsBase64Char(c)
    ensures CharOf(ValueOf(c)) == c
  {
  }

  predicate AllBase64(s: string) {
    forall i :: 0 <= i < |s| ==> IsBase64Char(s[i])
  }

  // ---------------------------------------------------------------------------
  // Encoding

  /** The four characters of a full quantum of 3 bytes: the bytes' 24 bits
      read as four 6-bit groups, most significant first. */
  function Quantum(b0: byte, b1: byte, b2: byte): (s: string)
    ensures |s| == 4 && AllBase64(s)
  {
    [CharOf(b0 / 4), CharOf((b0 % 4) * 16 + b1 / 16), CharOf((b1 % 16) * 4 + b2 / 64), CharOf(b2 % 64)]
  }

  /** The alphabet characters of the encoding of b, before padding: every
      3 bytes become 4 characters and a final 1 or 2 bytes become 2 or 3. */
  function EncodeUnpadded(b: seq<byte>): (s: string)
    ensures AllBase64(s)
    ensures |s| == 4 * (|b| / 3) + (if |b| % 3 == 0 then 0 else |b| % 3 + 1)
    decreases |b|
  {
    if |b| == 0 then ""
    else if |b| == 1 then
      [CharOf(b[0] / 4), CharOf((b[0] % 4) * 16)]
    else if |b| == 2 then
      [CharOf(b[0] / 4), CharOf((b[0] % 4) * 16 + b[1] / 16), CharOf((b[1] % 16) * 4)]
    else
      DropQuantum(|b|);
      Quantum(b[0], b[1], b[2]) + EncodeUnpadded(b[3..])
  }

  /** How the quantum count and the remainder change as one quantum is consumed. */
  lemma DropQuantum(n: nat)
    requires n >= 3
    ensures (n - 3) / 3 == n / 3 - 1
    ensures (n - 3) % 3 == n % 3
  {
  }

  lemma QuantaMod4Step(x: nat)
    ensures (x + 4) % 4 == x % 4
  {
  }

  lemma QuantaMod4(q: nat, e: nat)
    requires e < 4
    ensures (4 * q + e) % 4 == e
  {
  }

  /** The padding that completes the last quantum to 4 characters. */
  function Padding(n: nat): string {
    if n % 3 == 1 then "==" else if n % 3 == 2 then "=" else ""
  }

  /** `Buffer.from(b).toString('base64')`: the padded encoding, 4 characters
      per started group of 3 bytes. */
  function Encode(b: seq<byte>): (s: string)
    ensures |s| == 4 * ((|b| + 2) / 3)
    ensures |s| % 4 == 0
    ensures |s| == 0 <==> |b| == 0
  {
    var n := |b|;
    assert (n + 2) / 3 == n / 3 + (if n % 3 == 0 then 0 else 1);
    QuantaMod4((n + 2) / 3, 0);
    EncodeUnpadded(b) + Padding(n)
  }

  // ---------------------------------------------------------------------------
  // Decoding (atob)

  /** ASCII whitespace of the Infra Standard: TAB, LF, FF, CR, SPACE. */
  predicate IsAsciiWhitespace(c: char) {
    c == '\t' || c == '\n' || c == '\U{000C}' || c == '\r' || c == ' '
  }

  /** s with all ASCII whitespace removed (step 1 of forgiving-base64 decode). */
  function RemoveAsciiWhitespace(s: string): (r: string)
    ensures |r| <= |s|
    ensures forall i :: 0 <= i < |r| ==> !IsAsciiWhitespace(r[i])
    ensures (forall i :: 0 <= i < |s| ==> !IsAsciiWhitespace(s[i])) ==> r == s
    decreases |s|
  {
    if |s| == 0 then ""
    else if IsAsciiWhitespace(s[0]) then RemoveAsciiWhitespace(s[1..])
    else [s[0]] + RemoveAsciiWhitespace(s[1..])
  }

  /** Step 2: when the length is a multiple of 4, one or two trailing '='
      are dropped. */
  function StripPadding(t: string): (u: string)
    ensures |u| <= |t| && u == t[..|u|]
  {
    if |t| % 4 == 0 && |t| >= 2 && t[|t| - 2..] == "==" then t[..|t| - 2]
    else if |t| % 4 == 0 && |t| >= 1 && t[|t| - 1] == '=' then t[..|t| - 1]
    else t
  }

  /** The 3 bytes spelled by four 6-bit values: their 24 bits regrouped as
      octets, most significant first. */
  function Group(v0: int, v1: int, v2: int, v3: int): (b: seq<byte>)
    requires 0 <= v0 < 64 && 0 <= v1 < 64 && 0 <= v2 < 64 && 0 <= v3 < 64
    ensures |b| == 3
  {
    [v0 * 4 + v1 / 16, (v1 % 16) * 16 + v2 / 4, (v2 % 4) * 64 + v3]
  }

  /** Steps 5-9: the bytes that the 6-bit groups of u spell out; a final
      group of 2 or 3 characters yields the first 1 or 2 bytes of what it
      would spell padded with zero bits, so its left-over bits are discarded. */
  function DecodeUnpadded(u: string): (b: seq<byte>)
    requires AllBase64(u)
    requires |u| % 4 != 1
    ensures |b| == 3 * |u| / 4
    decreases |u|
  {
    if |u| == 0 then []
    else if |u| == 2 then Group(ValueOf(u[0]), ValueOf(u[1]), 0, 0)[..1]
    else if |u| == 3 then Group(ValueOf(u[0]), ValueOf(u[1]), ValueOf(u[2]), 0)[..2]
    else Group(ValueOf(u[0]), ValueOf(u[1]), ValueOf(u[2]), ValueOf(u[3])) + DecodeUnpadded(u[4..])
  }

  /** The binary string whose character codes are the given bytes. */
  function BinaryString(b: seq<byte>): (s: string)
    ensures |s| == |b|
    ensures forall i :: 0 <= i < |b| ==> s[i] as int == b[i]
  {
    seq(|b|, i requires 0 <= i < |b| => b[i] as char)
  }

  /** `atob(s)`: None where the browser throws InvalidCharacterError (a length
      of 1 modulo 4 after stripping, or a character outside the alphabet),
      otherwise the decoded binary string. */
  function Atob(s: string): (r: Option<string>)
    ensures r.Some? ==> forall i :: 0 <= i < |r.value| ==> r.value[i] as int < 256
  {
    var u := StripPadding(RemoveAsciiWhitespace(s));
    if |u| % 4 == 1 || !AllBase64(u) then None
    else Some(BinaryString(DecodeUnpadded(u)))
  }

  // ---------------------------------------------------------------------------
  // Round trip

  /** Regrouping the four 6-bit values of a quantum gives back its bytes. */
  lemma GroupOfQuantum(b0: byte, b1: byte, b2: byte)
    ensures Group(b0 / 4, (b0 % 4) * 16 + b1 / 16, (b1 % 16) * 4 + b2 / 64, b2 % 64) == [b0, b1, b2]
  {
  }

  /** The values of a quantum's characters regroup into its bytes. */
  lemma QuantumValues(b0: byte, b1: byte, b2: byte)
    ensures var q := Quantum(b0, b1, b2);
      Group(ValueOf(q[0]), ValueOf(q[1]), ValueOf(q[2]), ValueOf(q[3])) == [b0, b1, b2]
  {
    var c0, c1, c2, c3 := b0 / 4, (b0 % 4) * 16 + b1 / 16, (b1 % 16) * 4 + b2 / 64, b2 % 64;
    ValueOfCharOf(c0);
    ValueOfCharOf(c1);
    ValueOfCharOf(c2);
    ValueOfCharOf(c3);
    GroupOfQuantum(b0, b1, b2);
  }

  /** A full group of 4 characters decodes on its own, ahead of the rest. */
  lemma DecodeFullGroup(q: string, rest: string)
    requires |q| == 4 && AllBase64(q) && AllBase64(rest) && |rest| % 4 != 1
    ensures AllBase64(q + rest)
    ensures |q + rest| % 4 == |rest| % 4
    ensures DecodeUnpadded(q + rest)
      == Group(ValueOf(q[0]), ValueOf(q[1]), ValueOf(q[2]), ValueOf(q[3])) + DecodeUnpadded(rest)
  {
    var u := q + rest;
    QuantaMod4Step(|rest|);
    assert u[4..] == rest;
    assert u[0] == q[0] && u[1] == q[1] && u[2] == q[2] && u[3] == q[3];
  }

  /** Decoding a quantum followed by more text gives its 3 bytes first. */
  lemma DecodeQuantum(b0: byte, b1: byte, b2: byte, rest: string)
    requires AllBase64(rest) && |rest| % 4 != 1
    ensures AllBase64(Quantum(b0, b1, b2) + rest)
    ensures |Quantum(b0, b1, b2) + rest| % 4 == |rest| % 4
    ensures DecodeUnpadded(Quantum(b0, b1, b2) + rest) == [b0, b1, b2] + DecodeUnpadded(rest)
  {
    DecodeFullGroup(Quantum(b0, b1, b2), rest);
    QuantumValues(b0, b1, b2);
  }

  /** A final single byte, encoded as 2 characters, decodes back. */
  lemma DecodeTail1(b0: byte)
    ensures DecodeUnpadded(EncodeUnpadded([b0])) == [b0]
  {
    var c0, c1 := b0 / 4, (b0 % 4) * 16;
    ValueOfCharOf(c0);
    ValueOfCharOf(c1);
    GroupOfQuantum(b0, 0, 0);
  }

  /** A final pair of bytes, encoded as 3 characters, decodes back. */
  lemma DecodeTail2(b0: byte, b1: byte)
    ensures DecodeUnpadded(EncodeUnpadded([b0, b1])) == [b0, b1]
  {
    var c0, c1, c2 := b0 / 4, (b0 % 4) * 16 + b1 / 16, (b1 % 16) * 4;
    ValueOfCharOf(c0);
    ValueOfCharOf(c1);
    ValueOfCharOf(c2);
    GroupOfQuantum(b0, b1, 0);
  }

  /** Decoding inverts encoding, quantum by quantum. */
  lemma {:induction false} DecodeEncodeUnpadded(b: seq<byte>)
    ensures DecodeUnpadded(EncodeUnpadded(b)) == b
    decreases |b|
  {
    if |b| == 1 {
      assert b == [b[0]];
      DecodeTail1(b[0]);
    } else if |b| == 2 {
      assert b == [b[0], b[1]];
      DecodeTail2(b[0], b[1]);
    } else if |b| >= 3 {
      var rest := EncodeUnpadded(b[3..]);
      assert EncodeUnpadded(b) == Quantum(b[0], b[1], b[2]) + rest;
      DecodeQuantum(b[0], b[1], b[2], rest);
      DecodeEncodeUnpadded(b[3..]);
      assert b == [b[0], b[1], b[2]] + b[3..];
    }
  }

  /** The encoding contains no ASCII whitespace. */
  lemma EncodeHasNoWhitespace(b: seq<byte>)
    ensures forall i :: 0 <= i < |Encode(b)| ==> !IsAsciiWhitespace(Encode(b)[i])
  {
    var s := Encode(b);
    var e := EncodeUnpadded(b);
    forall i | 0 <= i < |s| ensures !IsAsciiWhitespace(s[i]) {
      if i < |e| {
        assert s[i] == e[i];
      }
    }
  }

  /** Dropping the padding recovers the unpadded encoding. */
  lemma StripPaddingOfEncode(b: seq<byte>)
    ensures StripPadding(Encode(b)) == EncodeUnpadded(b)
  {
    var s := Encode(b);
    var e := EncodeUnpadded(b);
    var n := |s|;
    assert s == e + Padding(|b|);
    if |b| % 3 == 1 {
      assert s[n - 2..] == "==";
      assert s[..n - 2] == e;
    } else if |b| % 3 == 2 {
      assert s[n - 2] == e[|e| - 1] != '=';
      assert s[n - 1] == '=';
      assert s[..n - 1] == e;
    } else if |b| > 0 {
      assert s == e;
      assert s[n - 1] == e[|e| - 1] != '=';
    }
  }

  /** What the browser's `atob` makes of what the server's
      `toString('base64')` produced: exactly the original bytes, as a binary
      string. */
  lemma AtobEncode(b: seq<byte>)
    ensures Atob(Encode(b)) == Some(BinaryString(b))
  {
    var s := Encode(b);
    EncodeHasNoWhitespace(b);
    assert RemoveAsciiWhitespace(s) == s;
    StripPaddingOfEncode(b);
    var u := EncodeUnpadded(b);
    assert StripPadding(RemoveAsciiWhitespace(s)) == u;
    QuantaMod4(|b| / 3, if |b| % 3 == 0 then 0 else |b| % 3 + 1);
    assert |u| % 4 != 1 && AllBase64(u);
    DecodeEncodeUnpadded(b);
  }

  /** Different audio never travels as the same text. */
  lemma EncodeInjective(a: seq<byte>, b: seq<byte>)
    requires Encode(a) == Encode(b)
    ensures a == b
  {
    AtobEncode(a);
    AtobEncode(b);
    var sa, sb := BinaryString(a), BinaryString(b);
    assert |a| == |b|;
    forall i | 0 <= i < |a| ensures a[i] == b[i] {
      assert sa[i] as int == a[i];
    }
  }
}

=== FILE: client.dfy ===
/** The browser script (public/script.js): the submit handler of the study
    form and `b64toBlob`, which turns the base64 audio of a reply into a Blob
    of byte slices.

    The page is a record of what the handler touches: the answer text, the
    audio element's source, the error area and the loading indicator. A
    submission is split at its one `await` point into `Submit`, which
    validates the form and prepares the page, and `Settle`, which applies
    what `fetch` produced. */
module Client {
  import opened Common
  import Strings
  import Base64

  // ---------------------------------------------------------------------------
  // Constants

  /** The default `sliceSize` of `b64toBlob`. */
  const SliceSize: nat := 512
  const AudioType := "audio/mp3"

  const NoFileMessage := "Please select a study material file."
  const NoQueryMessage := "Please enter your query for Elem AI."
  const PlaceholderText := "Your AI-powered insights will appear here..."
  const FallbackError := "Failed to get response from Elem AI."

  // ---------------------------------------------------------------------------
  // b64toBlob

  /** A Blob: its parts (one Uint8Array per slice) and its type. */
  datatype Blob = Blob(parts: seq<seq<byte>>, contentType: string)

  /** `new Uint8Array(codes)` over the char codes of s: each code modulo 256. */
  function Uint8(s: string): (b: seq<byte>)
    ensures |b| == |s|
    ensures forall i :: 0 <= i < |s| ==> b[i] == (s[i] as int) % 256
  {
    seq(|s|, i requires 0 <= i < |s| => (s[i] as int) % 256)
  }

  /** The successive `slice(offset, offset + size)` of s for offset = 0,
      size, 2 size, ... while offset < |s|; the last one may be shorter. */
  function Chunks(s: string, size: nat): seq<string>
    requires size > 0
    decreases |s|
  {
    if |s| == 0 then []
    else if |s| <= size then [s]
    else [s[..size]] + Chunks(s[size..], size)
  }

  /** One Uint8Array per slice. */
  function SliceBytes(cs: seq<string>): (bs: seq<seq<byte>>)
    ensures |bs| == |cs|
  {
    if |cs| == 0 then [] else [Uint8(cs[0])] + SliceBytes(cs[1..])
  }

  /** Concatenation of a list of sequences (what a Blob's bytes are). */
  function Concat<T>(ss: seq<seq<T>>): seq<T> {
    if |ss| == 0 then [] else ss[0] + Concat(ss[1..])
  }

  /** What `b64toBlob(b64, type, size)` returns, or None when `atob` throws. */
  function BlobOf(b64: string, contentType: string, size: nat): Option<Blob>
    requires size > 0
  {
    match Base64.Atob(b64)
    case None => None
    case Some(chars) => Some(Blob(SliceBytes(Chunks(chars, size)), contentType))
  }

  /** The slices cover s in order: concatenated, they give s back. */
  lemma {:induction false} ChunksConcat(s: string, size: nat)
    requires size > 0
    ensures Concat(Chunks(s, size)) == s
    decreases |s|
  {
    if |s| > size {
      ChunksConcat(s[size..], size);
      assert s == s[..size] + s[size..];
    }
  }

  /** Every slice is non-empty and at most `size` long, every slice but the
      last is exactly `size` long, and there are ceil(|s| / size) of them:
      the fewest whose total capacity covers s. */
  lemma {:induction false} ChunksShape(s: string, size: nat)
    requires size > 0
    ensures var cs := Chunks(s, size);
      && (|cs| - 1) * size < |s| <= |cs| * size
      && (forall k :: 0 <= k < |cs| ==> 0 < |cs[k]| <= size)
      && (forall k :: 0 <= k < |cs| - 1 ==> |cs[k]| == size)
    decreases |s|
  {
    if |s| > size {
      var rest := Chunks(s[size..], size);
      ChunksShape(s[size..], size);
      var cs := Chunks(s, size);
      assert cs == [s[..size]] + rest;
      assert (|cs| - 1) * size == |rest| * size;
      assert |cs| * size == |rest| * size + size;
      assert (|rest| - 1) * size == |rest| * size - size;
      assert forall k :: 1 <= k < |cs| ==> cs[k] == rest[k - 1];
    }
  }

  /** Concatenating the Uint8Arrays of the slices is the Uint8Array of the
      whole string. */
  lemma {:induction false} SliceBytesConcat(cs: seq<string>)
    ensures Concat(SliceBytes(cs)) == Uint8(Concat(cs))
    decreases |cs|
  {
    if |cs| > 0 {
      SliceBytesConcat(cs[1..]);
      assert Uint8(cs[0] + Concat(cs[1..])) == Uint8(cs[0]) + Uint8(Concat(cs[1..]));
    }
  }

  /** The Blob holds exactly the bytes `atob` decoded, in order. */
  lemma BlobBytes(b64: string, contentType: string, size: nat)
    requires size > 0
    requires Base64.Atob(b64).Some?
    ensures Concat(BlobOf(b64, contentType, size).value.parts) == Uint8(Base64.Atob(b64).value)
  {
    var chars := Base64.Atob(b64).value;
    SliceBytesConcat(Chunks(chars, size));
    ChunksConcat(chars, size);
  }

  /** The slices from `offset` on: the one at `offset`, then those from
      the next offset (none once the end is reached). */
  lemma ChunkStep(chars: string, offset: nat, size: nat)
    requires size > 0 && offset < |chars|
    ensures var next := Min(offset + size, |chars|);
      SliceBytes(Chunks(chars[offset..], size))
        == [Uint8(chars[offset..next])] + SliceBytes(Chunks(chars[next..], size))
  {
    var t := chars[offset..];
    var next := Min(offset + size, |chars|);
    if |t| <= size {
      assert t == chars[offset..next];
      assert chars[next..] == [];
    } else {
      assert t[..size] == chars[offset..next];
      assert t[size..] == chars[next..];
    }
  }

  /** The inner loop of `b64toBlob` (script.js lines 94-99): the char
      codes of a slice, collected one by one, then `new Uint8Array`. */
  method SliceToUint8(slice: string) returns (byteArray: seq<byte>)
    ensures byteArray == Uint8(slice)
  {
    var numbers: seq<int> := [];
    var i := 0;
    while i < |slice|
      invariant 0 <= i <= |slice|
      invariant |numbers| == i
      invariant forall j :: 0 <= j < i ==> numbers[j] == slice[j] as int
    {
      numbers := numbers + [slice[i] as int];
      i := i + 1;
    }
    byteArray := seq(|numbers|, j requires 0 <= j < |numbers| => numbers[j] % 256);
  }

  /** `b64toBlob` (script.js lines 87-105): `atob`, then one Uint8Array of
      char codes per slice of `sliceSize` characters. None when `atob`
      throws. A `sliceSize` of 0 would never leave the loop on a non-empty
      string, hence the precondition. */
  method B64ToBlob(b64: string, contentType: string, sliceSize: nat) returns (r: Option<Blob>)
    requires sliceSize > 0
    ensures r == BlobOf(b64, contentType, sliceSize)
  {
    var decoded := Base64.Atob(b64);
    if decoded.None? {
      return None;
    }
    var chars := decoded.value;
    var parts: seq<seq<byte>> := [];
    var offset: nat := 0;
    while offset < |chars|
      invariant parts + SliceBytes(Chunks(chars[Min(offset, |chars|)..], sliceSize))
        == SliceBytes(Chunks(chars, sliceSize))
      decreases |chars| - offset
    {
      var end := Min(offset + sliceSize, |chars|);
      var slice := chars[offset..end];
      var byteArray := SliceToUint8(slice);
      ChunkStep(chars, offset, sliceSize);
      parts := parts + [byteArray];
      offset := offset + sliceSize;
    }
    assert chars[Min(offset, |chars|)..] == [];
    assert SliceBytes(Chunks([], sliceSize)) == [];
    assert parts == SliceBytes(Chunks(chars, sliceSize));
    return Some(Blob(parts, contentType));
  }

  // ---------------------------------------------------------------------------
  // The page and a submission

  /** What the audio element plays: nothing, or an object URL of a Blob. */
  datatype AudioSource = NoSource | BlobSource(blob: Blob)

  /** The parts of the page the handler writes. */
  datatype Page = Page(
    text: string,
    audio: AudioSource,
    errorShown: bool,
    errorText: string,
    loading: bool)

  /** The file picked in the file input. */
  datatype FileRef = FileRef(name: string, mimetype: string, content: seq<byte>)

  /** The multipart body sent: `studyMaterial` and `userQuery`. */
  datatype FormData = FormData(studyMaterial: FileRef, userQuery: string)

  /** The string members of the reply's JSON body the handler reads. */
  datatype ReplyJson = ReplyJson(error: Option<string>, aiResponse: Option<string>, audio: Option<string>)

  /** What `fetch` produced: a rejection with its message, or a response
      whose body parsed as JSON or failed to parse with a message. */
  datatype Fetched =
    | NetworkError(message: string)
    | Answered(status: int, json: Result<ReplyJson>)

  /** The outcome of the synchronous part of a submission. */
  datatype Submitted =
    | Rejected(page: Page)
    | Sent(form: FormData, pending: Page)

  /** `showError`. */
  function ShowError(p: Page, message: string): Page {
    p.(errorShown := true, errorText := message)
  }

  /** The handler up to the `fetch` (script.js lines 11-34): the query is
      trimmed, a missing file or blank query is reported without sending,
      otherwise the page is reset and the form is sent. */
  function Submit(p: Page, file: Option<FileRef>, rawQuery: string): (s: Submitted)
    ensures s.Rejected? ==>
      && s.page.errorShown
      && s.page.(errorShown := p.errorShown, errorText := p.errorText) == p
    ensures s.Sent? ==>
      && file == Some(s.form.studyMaterial)
      && s.form.userQuery == Strings.JsTrim(rawQuery)
      && s.pending == Page(PlaceholderText, NoSource, false, "", true)
  {
    var query := Strings.JsTrim(rawQuery);
    if file.None? then Rejected(ShowError(p, NoFileMessage))
    else if query == "" then Rejected(ShowError(p, NoQueryMessage))
    else Sent(FormData(file.value, query), Page(PlaceholderText, NoSource, false, "", true))
  }

  /** A form is sent exactly when a file is picked and the query is not all
      whitespace; the query sent is non-empty and has no surrounding whitespace. */
  lemma SubmitSendsIff(p: Page, file: Option<FileRef>, rawQuery: string)
    ensures Submit(p, file, rawQuery).Sent? <==>
      file.Some? && !Strings.AllSpace(rawQuery, Strings.JavaScript)
    ensures Submit(p, file, rawQuery).Sent? ==>
      var q := Submit(p, file, rawQuery).form.userQuery;
      q != "" && !Strings.IsJsSpace(q[0]) && !Strings.IsJsSpace(q[|q| - 1])
    ensures file.None? ==> Submit(p, file, rawQuery) == Rejected(ShowError(p, NoFileMessage))
    ensures file.Some? && Strings.AllSpace(rawQuery, Strings.JavaScript) ==>
      Submit(p, file, rawQuery) == Rejected(ShowError(p, NoQueryMessage))
  {
    Strings.TrimEmptyIffAllSpace(rawQuery, Strings.JavaScript);
  }

  /** `response.ok`. */
  predicate Ok2xx(status: int) {
    200 <= status <= 299
  }

  /** The handler after the `fetch` (script.js lines 36-65), from the page
      as `Submit` left it. `atobError` is the message of the exception
      `atob` throws on a malformed audio string. */
  function Settle(p: Page, f: Fetched, atobError: string): (q: Page)
    ensures !q.loading
    ensures q.errorShown <==>
      p.errorShown || !(f.Answered? && Ok2xx(f.status) && f.json.Ok?
                        && (Truthy(f.json.value.audio) ==> Base64.Atob(f.json.value.audio.value).Some?))
    ensures q.audio != p.audio ==>
      || q.audio == NoSource
      || (&& f.Answered? && Ok2xx(f.status) && f.json.Ok? && Truthy(f.json.value.audio)
          && BlobOf(f.json.value.audio.value, AudioType, SliceSize).Some?
          && q.audio == BlobSource(BlobOf(f.json.value.audio.value, AudioType, SliceSize).value))
  {
    var q := match f
      case NetworkError(m) => ShowError(p, m)
      case Answered(status, json) =>
        match json
        case Err(m) => ShowError(p, m)
        case Ok(j) =>
          if !Ok2xx(status) then
            ShowError(p, if Truthy(j.error) then j.error.value else FallbackError)
          else
            var shown := p.(text := j.aiResponse.GetOr(""));
            if Truthy(j.audio) then
              match BlobOf(j.audio.value, AudioType, SliceSize)
              case None => ShowError(shown, atobError)
              case Some(blob) => shown.(audio := BlobSource(blob))
            else
              shown.(audio := NoSource);
    q.(loading := false)
  }

  /** A successful reply shows its answer text (or "" when absent) and
      changes neither the error area nor, without audio, the audio source
      Submit cleared. */
  lemma SettleSuccess(p: Page, status: int, j: ReplyJson, atobError: string)
    requires Ok2xx(status) && p.audio == NoSource
    ensures var q := Settle(p, Answered(status, Ok(j)), atobError);
      && q.text == j.aiResponse.GetOr("")
      && (!Truthy(j.audio) ==> q.audio == NoSource && q.errorText == p.errorText)
  {
  }

  /** A non-2xx reply shows the reply's `error` when it is a non-empty
      string and the fixed fallback otherwise, and leaves text and audio alone. */
  lemma SettleError(p: Page, status: int, j: ReplyJson, atobError: string)
    requires !Ok2xx(status)
    ensures var q := Settle(p, Answered(status, Ok(j)), atobError);
      && q.errorShown
      && q.errorText == (if Truthy(j.error) then j.error.value else FallbackError)
      && q.text == p.text && q.audio == p.audio
  {
  }
}

=== FILE: common.dfy ===
/** Small shared vocabulary: optional values, outcomes of calls into code
    outside the model, bytes, and the truthiness test both back ends apply
    to optional strings. */
module Common {

  /** A value that may be absent (a missing form field, JSON key or file part). */
  datatype Option<+T> = None | Some(value: T) {

    /** The value, or `default` when absent. */
    function GetOr(default: T): T {
      match this
      case Some(v) => v
      case None => default
    }
  }

  /** What a call into a library or service outside the model produced:
      its value, or the message of the error it raised. */
  datatype Result<+T> = Ok(value: T) | Err(message: string)

  /** An octet, as held in a Node.js Buffer or a Uint8Array. */
  type byte = x: int | 0 <= x < 256

  /** JavaScript `!!s` and Python `bool(s)` for an optional string: present and non-empty. */
  predicate Truthy(s: Option<string>) {
    s.Some? && s.value != ""
  }

  function Min(a: int, b: int): int {
    if a <= b then a else b
  }
}

=== FILE: end_to_end.dfy ===
/** A submission from the page through `POST /api/process` and back: what
    the browser sends reaches the Express handler, and what the handler
    answers is what the page ends up showing and playing. Validation and
    cleanup are stated for the handler as written (`Server.ProcessAsWritten`).
    The page is run against the single-cleanup `Server.Process`; by
    `Server.SameResponses` its responses are those of the code as written. */
module EndToEnd {
  import opened Common
  import Base64
  import Server
  import Client

  /** The request the handler sees for a sent form. This is an assumption
      about multer and the browser, not something proved: the `studyMaterial`
      file is stored at `path` with the browser's mimetype, and the
      `userQuery` field arrives as sent. */
  function Received(form: Client.FormData, path: string): Server.ProcessRequest
  {
    Server.ProcessRequest(Some(Server.UploadedFile(path, form.studyMaterial.mimetype)), Some(form.userQuery))
  }

  /** The response as the page reads it: the JSON body carries `error`, or
      `aiResponse` and `audio`; `details` is not read. */
  function Delivered(resp: Server.Response): (f: Client.Fetched)
    ensures f.Answered? && f.status == resp.status && f.json.Ok?
  {
    match resp.body
    case ErrorBody(e) => Client.Answered(resp.status, Ok(Client.ReplyJson(Some(e), None, None)))
    case FailureBody(e, _) => Client.Answered(resp.status, Ok(Client.ReplyJson(Some(e), None, None)))
    case AnswerBody(a, audio) => Client.Answered(resp.status, Ok(Client.ReplyJson(None, Some(a), Some(audio))))
  }

  /** The char codes of a binary string, as a Uint8Array, are its bytes. */
  lemma Uint8OfBinaryString(b: seq<byte>)
    ensures Client.Uint8(Base64.BinaryString(b)) == b
  {
    var u := Client.Uint8(Base64.BinaryString(b));
    assert forall i :: 0 <= i < |b| ==> u[i] == b[i];
  }

  /** Every form the page sends passes the validation of server.js as
      written: it carries a file and a non-empty query, so neither 400 for a
      missing field is possible. A PDF or plain-text upload is then removed
      once; a docx or other upload is removed twice and the handler throws
      after its 400. */
  lemma SentFormsPassValidation(p: Client.Page, file: Option<Client.FileRef>, rawQuery: string,
                                path: string, persona: string, o: Server.Oracles)
    requires Client.Submit(p, file, rawQuery).Sent?
    ensures var form := Client.Submit(p, file, rawQuery).form;
      var h := Server.ProcessAsWritten(Received(form, path), persona, o);
      var k := Server.KindOf(form.studyMaterial.mimetype);
      && h.response.body != Server.ErrorBody(Server.NoFileMessage)
      && h.response.body != Server.ErrorBody(Server.NoQueryMessage)
      && (k in {Server.Pdf, Server.PlainText} ==> Server.UnlinkCount(h.calls, path) == 1 && !h.escaped)
      && (k in {Server.Docx, Server.Unsupported} ==> Server.UnlinkCount(h.calls, path) == 2 && h.escaped)
  {
    var form := Client.Submit(p, file, rawQuery).form;
    var req := Received(form, path);
    assert Truthy(req.userQuery);
    var t := Server.TryBlock(req.file.value, form.userQuery, persona, o);
    Server.SameResponses(req, persona, o);
    assert Server.Process(req, persona, o).response == t.response;
    if Server.KindOf(form.studyMaterial.mimetype) in {Server.Docx, Server.Unsupported} {
      Server.AsWrittenUnlinksTwice(req, persona, o);
    }
  }

  /** A successful answer reaches the page: the text is Gemini's answer, no
      error is shown, and the audio element plays a Blob of type audio/mp3
      whose bytes are exactly the synthesized audio (no audio when the
      synthesis returned no bytes, as "" is falsy). */
  lemma SuccessReachesPage(pending: Client.Page, req: Server.ProcessRequest, persona: string,
                           o: Server.Oracles, atobError: string)
    requires pending == Client.Page(Client.PlaceholderText, Client.NoSource, false, "", true)
    requires Server.Process(req, persona, o).response.status == 200
    ensures var q := Client.Settle(pending, Delivered(Server.Process(req, persona, o).response), atobError);
      && o.generation.Ok? && o.synthesis.Ok?
      && q.text == o.generation.value
      && !q.errorShown && !q.loading
      && (o.synthesis.value == [] ==> q.audio == Client.NoSource)
      && (o.synthesis.value != [] ==>
            && q.audio.BlobSource?
            && q.audio.blob.contentType == Client.AudioType
            && Client.Concat(q.audio.blob.parts) == o.synthesis.value)
  {
    Server.SuccessShape(req, persona, o);
    var bytes := o.synthesis.value;
    var b64 := Base64.Encode(bytes);
    Base64.AtobEncode(bytes);
    if bytes != [] {
      Client.BlobBytes(b64, Client.AudioType, Client.SliceSize);
      Uint8OfBinaryString(bytes);
    }
  }

  /** A failed request reaches the page as the handler's own error message:
      the page shows it (never the fallback, as every message the handler
      sends is non-empty) and keeps the placeholder text and no audio. */
  lemma ErrorReachesPage(pending: Client.Page, req: Server.ProcessRequest, persona: string,
                         o: Server.Oracles, atobError: string)
    requires pending == Client.Page(Client.PlaceholderText, Client.NoSource, false, "", true)
    requires Server.Process(req, persona, o).response.status != 200
    ensures var resp := Server.Process(req, persona, o).response;
      var q := Client.Settle(pending, Delivered(resp), atobError);
      && !resp.body.AnswerBody?
      && q.errorShown
      && q.errorText == resp.body.error
      && q.errorText != ""
      && q.text == Client.PlaceholderText && q.audio == Client.NoSource
  {
    Server.ErrorBodies(req, persona, o);
  }
}

=== FILE: flask_app.dfy ===
/** The Flask back end (app.py): `upload_and_process`, `query_ai`,
    `generate_speech` and `serve_audio`, around two module-level globals:
    `processed_document_text`, the text of the last accepted document, and
    `temp_audio_files`, a registry from audio file names to their paths.

    Each handler is a pure function from the globals, the request and what
    its external calls return (text extraction, Gemini, gTTS) to the reply,
    the new globals and the service calls made. Requests are handled one at
    a time. */
module FlaskApp {
  import opened Common
  import Strings

  // ---------------------------------------------------------------------------
  // Constants

  /** Characters of the document quoted in the acknowledgement prompt. */
  const AckExcerpt: nat := 500

  const NoDocumentPartMessage := "No document part in the request"
  const NoSelectedFileMessage := "No selected file"
  const UnsupportedMessage := "Unsupported file type. Please upload PDF, DOCX, or TXT."
  const EmptyTextMessage := "Could not extract text from the document. It might be scanned or empty."
  const UploadOkMessage := "Document processed successfully!"
  const UploadFailurePrefix := "Failed to process document: "
  const NoDocumentMessage := "Please upload and process a document first."
  const NoQueryMessage := "No query provided."
  const QueryFailurePrefix := "Failed to get AI response: "
  const AudioNotFoundMessage := "Audio file not found or expired."
  const AudioRoute := "/audio/"

  const AckPromptHead := "I have processed a document. Please acknowledge its reception and inform the student you are ready to assist with summarization, quizzes, or explanations. Document excerpt (first 500 characters):\n```\n"
  const AckPromptTail := "...\n```"
  const QueryPromptHead := "Here is the study material:\n```\n"
  const QueryPromptMiddle := "\n```\n\nStudent's request: "

  // ---------------------------------------------------------------------------
  // State, requests, replies

  /** The two globals. */
  datatype AppState = AppState(documentText: string, audioFiles: map<string, string>)

  /** The globals at start-up. */
  const Initial := AppState("", map[])

  /** The `document` part of a multipart upload; werkzeug puts a part in
      `request.files` only when it carries a filename, so the name is a string. */
  datatype FilePart = FilePart(filename: string)

  datatype UploadRequest = UploadRequest(document: Option<FilePart>)

  /** How the handler treats a lower-cased extension. */
  datatype FileKind = PdfFile | DocxFile | TxtFile | OtherFile

  /** What a PDF page's `extract_text()` returned; None stands for a falsy result. */
  type PageText = Option<string>

  /** What the external calls of an upload return: reading the file part,
      the library output for each accepted format (only the one for the
      dispatched format is consulted), Gemini's answer, and gTTS, whose
      value is the path of the temporary mp3 it wrote. */
  datatype UploadOracles = UploadOracles(
    read: Result<()>,
    pdfPages: Result<seq<PageText>>,
    docxParagraphs: Result<seq<string>>,
    utf8: Result<string>,
    generation: Result<string>,
    speech: Result<string>)

  /** What the external calls of a query return. */
  datatype QueryOracles = QueryOracles(generation: Result<string>, speech: Result<string>)

  /** A call to Gemini (`generate_content`) or to gTTS. */
  datatype Call = Generate(prompt: string) | Speak(text: string)

  /** The JSON bodies and the file the handlers send. */
  datatype Body =
    | ErrorJson(error: string)
    | UploadJson(message: string, aiResponse: string, audioUrl: string)
    | QueryJson(aiResponse: string, audioUrl: string)
    | AudioFile(path: string, mimetype: string)

  datatype Reply = Reply(status: int, body: Body)

  /** A handler's reply, the globals after it, and the service calls it made. */
  datatype Step = Step(reply: Reply, state: AppState, calls: seq<Call>)

  // ---------------------------------------------------------------------------
  // Text extraction

  /** `extract_text_from_pdf`: the page texts concatenated, a falsy page
      contributing "". */
  function PdfText(pages: seq<PageText>): (t: string)
    ensures |pages| == 1 ==> t == pages[0].GetOr("")
    ensures forall i :: 0 <= i < |pages| && pages[i].Some? ==> |pages[i].value| <= |t|
    decreases |pages|
  {
    if |pages| == 0 then "" else PdfText(pages[..|pages| - 1]) + pages[|pages| - 1].GetOr("")
  }

  /** The text of a document split anywhere into two runs of pages is the
      text of the first run followed by the text of the second. */
  lemma {:induction false} PdfTextAppend(a: seq<PageText>, b: seq<PageText>)
    ensures PdfText(a + b) == PdfText(a) + PdfText(b)
    decreases |b|
  {
    if |b| == 0 {
      assert a + b == a;
    } else {
      assert (a + b)[..|a + b| - 1] == a + b[..|b| - 1];
      PdfTextAppend(a, b[..|b| - 1]);
    }
  }

  /** `extract_text_from_docx`: the paragraph texts joined with newlines. */
  function JoinLines(paragraphs: seq<string>): (t: string)
    ensures |paragraphs| == 1 ==> t == paragraphs[0]
    decreases |paragraphs|
  {
    if |paragraphs| == 0 then ""
    else if |paragraphs| == 1 then paragraphs[0]
    else JoinLines(paragraphs[..|paragraphs| - 1]) + "\n" + paragraphs[|paragraphs| - 1]
  }

  /** Joining two non-empty runs of paragraphs puts one newline between them:
      the paragraphs appear in order with "\n" between neighbours. */
  lemma {:induction false} JoinLinesAppend(a: seq<string>, b: seq<string>)
    requires |a| > 0 && |b| > 0
    ensures JoinLines(a + b) == JoinLines(a) + "\n" + JoinLines(b)
    decreases |b|
  {
    if |b| == 1 {
      assert (a + b)[..|a + b| - 1] == a;
    } else {
      assert (a + b)[..|a + b| - 1] == a + b[..|b| - 1];
      JoinLinesAppend(a, b[..|b| - 1]);
    }
  }

  /** Total length of a list of strings. */
  function TotalLength(ss: seq<string>): nat {
    if |ss| == 0 then 0 else TotalLength(ss[..|ss| - 1]) + |ss[|ss| - 1]|
  }

  /** Joining keeps every paragraph character and adds one newline between
      neighbouring paragraphs. */
  lemma {:induction false} JoinLinesLength(paragraphs: seq<string>)
    requires |paragraphs| > 0
    ensures |JoinLines(paragraphs)| == TotalLength(paragraphs) + |paragraphs| - 1
    decreases |paragraphs|
  {
    if |paragraphs| > 1 {
      JoinLinesLength(paragraphs[..|paragraphs| - 1]);
    }
  }

  /** The comparisons of lines 105-112 on a lower-cased extension. */
  function KindOfExtension(ext: string): (k: FileKind)
    ensures k == PdfFile <==> ext == ".pdf"
    ensures k == DocxFile <==> ext == ".docx"
    ensures k == TxtFile <==> ext == ".txt"
  {
    if ext == ".pdf" then PdfFile
    else if ext == ".docx" then DocxFile
    else if ext == ".txt" then TxtFile
    else OtherFile
  }

  /** The dispatch of lines 102-112: on the lower-cased `splitext` extension. */
  function KindOfName(filename: string): (k: FileKind)
    ensures var ext := Strings.LowerAscii(Strings.Extension(filename));
      && (k == PdfFile <==> ext == ".pdf")
      && (k == DocxFile <==> ext == ".docx")
      && (k == TxtFile <==> ext == ".txt")
  {
    KindOfExtension(Strings.LowerAscii(Strings.Extension(filename)))
  }

  /** The text the branch for an accepted kind extracts, or the error it raised. */
  function Extracted(kind: FileKind, o: UploadOracles): Result<string>
    requires kind != OtherFile
  {
    match kind
    case PdfFile => (match o.pdfPages case Ok(pages) => Ok(PdfText(pages)) case Err(m) => Err(m))
    case DocxFile => (match o.docxParagraphs case Ok(ps) => Ok(JoinLines(ps)) case Err(m) => Err(m))
    case TxtFile => o.utf8
  }

  // ---------------------------------------------------------------------------
  // Prompts

  /** The acknowledgement prompt: the first 500 characters of the text
      followed by "...", inside a fenced block. */
  function AckPrompt(text: string): (p: string)
    ensures Strings.IsPrefix(AckPromptHead, p)
    ensures p[|AckPromptHead|..] == Strings.Take(text, AckExcerpt) + AckPromptTail
  {
    var p := AckPromptHead + Strings.Take(text, AckExcerpt) + AckPromptTail;
    assert p[..|AckPromptHead|] == AckPromptHead;
    p
  }

  /** The query prompt: the whole stored text, untruncated, then the request. */
  function QueryPrompt(text: string, query: string): (p: string)
    ensures Strings.IsPrefix(QueryPromptHead + text, p)
    ensures Strings.IsSuffix(query, p)
    ensures |p| == |QueryPromptHead| + |text| + |QueryPromptMiddle| + |query|
  {
    var p := QueryPromptHead + text + QueryPromptMiddle + query;
    assert p[..|QueryPromptHead + text|] == QueryPromptHead + text;
    assert p[|p| - |query|..] == query;
    p
  }

  // ---------------------------------------------------------------------------
  // Handlers

  /** `generate_speech`: after gTTS wrote the mp3 at `path`, its base name is
      registered for that path and returned; when gTTS fails, nothing is
      registered. Entries are only ever added. */
  function GenerateSpeech(files: map<string, string>, speech: Result<string>): (r: Result<(string, map<string, string>)>)
    ensures speech.Err? ==> r == Err(speech.message)
    ensures speech.Ok? ==> r.Ok?
    ensures r.Ok? ==>
      var (name, files') := r.value;
      && name == Strings.Basename(speech.value)
      && files'.Keys == files.Keys + {name}
      && files'[name] == speech.value
      && forall k :: k in files && k != name ==> files'[k] == files[k]
  {
    match speech
    case Err(m) => Err(m)
    case Ok(path) =>
      var name := Strings.Basename(path);
      var files' := files[name := path];
      assert files'.Keys == files.Keys + {name};
      Ok((name, files'))
  }

  /** `upload_and_process` (app.py lines 91-131). */
  function UploadAndProcess(s: AppState, req: UploadRequest, o: UploadOracles): (st: Step)
    ensures st.state.audioFiles.Keys >= s.audioFiles.Keys
    ensures st.reply.status in {200, 400, 500}
    ensures st.reply.status != 200 ==> st.reply.body.ErrorJson?
    ensures st.state.documentText != s.documentText ==>
      req.document.Some? && KindOfName(req.document.value.filename) != OtherFile
  {
    if req.document.None? then
      Step(Reply(400, ErrorJson(NoDocumentPartMessage)), s, [])
    else if req.document.value.filename == "" then
      Step(Reply(400, ErrorJson(NoSelectedFileMessage)), s, [])
    else
      match o.read
      case Err(m) => Step(Reply(500, ErrorJson(UploadFailurePrefix + m)), s, [])
      case Ok(_) =>
        var kind := KindOfName(req.document.value.filename);
        if kind == OtherFile then
          Step(Reply(400, ErrorJson(UnsupportedMessage)), s, [])
        else
          match Extracted(kind, o)
          case Err(m) => Step(Reply(500, ErrorJson(UploadFailurePrefix + m)), s, [])
          case Ok(text) =>
            var s1 := s.(documentText := text);
            if Strings.PyStrip(text) == "" then
              Step(Reply(400, ErrorJson(EmptyTextMessage)), s1, [])
            else
              var prompt := AckPrompt(text);
              match o.generation
              case Err(m) => Step(Reply(500, ErrorJson(UploadFailurePrefix + m)), s1, [Generate(prompt)])
              case Ok(answer) =>
                match GenerateSpeech(s1.audioFiles, o.speech)
                case Err(m) =>
                  Step(Reply(500, ErrorJson(UploadFailurePrefix + m)), s1, [Generate(prompt), Speak(answer)])
                case Ok((name, files)) =>
                  Step(Reply(200, UploadJson(UploadOkMessage, answer, AudioRoute + name)),
                       s1.(audioFiles := files), [Generate(prompt), Speak(answer)])
  }

  /** `query_ai` (app.py lines 133-156): `query` is the `query` member of the
      JSON body, absent when missing. The stored text is read, never written. */
  function QueryAi(s: AppState, query: Option<string>, o: QueryOracles): (st: Step)
    ensures st.state.documentText == s.documentText
    ensures st.state.audioFiles.Keys >= s.audioFiles.Keys
    ensures st.reply.status in {200, 400, 500}
    ensures st.reply.status != 200 ==> st.reply.body.ErrorJson?
  {
    if s.documentText == "" then
      Step(Reply(400, ErrorJson(NoDocumentMessage)), s, [])
    else if !Truthy(query) then
      Step(Reply(400, ErrorJson(NoQueryMessage)), s, [])
    else
      var prompt := QueryPrompt(s.documentText, query.value);
      match o.generation
      case Err(m) => Step(Reply(500, ErrorJson(QueryFailurePrefix + m)), s, [Generate(prompt)])
      case Ok(answer) =>
        match GenerateSpeech(s.audioFiles, o.speech)
        case Err(m) => Step(Reply(500, ErrorJson(QueryFailurePrefix + m)), s, [Generate(prompt), Speak(answer)])
        case Ok((name, files)) =>
          Step(Reply(200, QueryJson(answer, AudioRoute + name)), s.(audioFiles := files), [Generate(prompt), Speak(answer)])
  }

  /** `serve_audio` (app.py lines 158-164): the registered path when it is
      non-empty and exists on disk (`onDisk`), otherwise 404. */
  function ServeAudio(s: AppState, filename: string, onDisk: set<string>): (r: Reply)
    ensures r.status == 200 <==>
      filename in s.audioFiles && s.audioFiles[filename] != "" && s.audioFiles[filename] in onDisk
    ensures r.status == 200 ==> r.body == AudioFile(s.audioFiles[filename], "audio/mpeg")
    ensures r.status != 200 ==> r == Reply(404, ErrorJson(AudioNotFoundMessage))
  {
    if filename in s.audioFiles && s.audioFiles[filename] != "" && s.audioFiles[filename] in onDisk then
      Reply(200, AudioFile(s.audioFiles[filename], "audio/mpeg"))
    else
      Reply(404, ErrorJson(AudioNotFoundMessage))
  }

  // ---------------------------------------------------------------------------
  // Sessions: sequences of requests

  /** One request to the app, with what its external calls return. */
  datatype Request =
    | Upload(upload: UploadRequest, uploadOracles: UploadOracles)
    | Query(query: Option<string>, queryOracles: QueryOracles)
    | GetAudio(filename: string, onDisk: set<string>)

  /** The globals after one request. */
  function Apply(s: AppState, r: Request): AppState {
    match r
    case Upload(u, o) => UploadAndProcess(s, u, o).state
    case Query(q, o) => QueryAi(s, q, o).state
    case GetAudio(_, _) => s
  }

  /** The globals after a sequence of requests, handled in order. */
  function Run(s: AppState, rs: seq<Request>): AppState
    decreases |rs|
  {
    if |rs| == 0 then s else Run(Apply(s, rs[0]), rs[1..])
  }

  // ---------------------------------------------------------------------------
  // Properties

  /** The audio registry only grows: no sequence of requests removes a name. */
  lemma {:induction false} RegistryOnlyGrows(s: AppState, rs: seq<Request>)
    ensures s.audioFiles.Keys <= Run(s, rs).audioFiles.Keys
    decreases |rs|
  {
    if |rs| > 0 {
      RegistryOnlyGrows(Apply(s, rs[0]), rs[1..]);
    }
  }

  /** The stored document changes only through an upload with an accepted
      extension: a run with no such upload leaves it as it was. */
  lemma {:induction false} DocumentChangesOnlyByAcceptedUpload(s: AppState, rs: seq<Request>)
    requires forall i :: 0 <= i < |rs| && rs[i].Upload? ==>
      rs[i].upload.document.None? || KindOfName(rs[i].upload.document.value.filename) == OtherFile
    ensures Run(s, rs).documentText == s.documentText
    decreases |rs|
  {
    if |rs| > 0 {
      DocumentChangesOnlyByAcceptedUpload(Apply(s, rs[0]), rs[1..]);
    }
  }

  /** Validation of an upload: a missing part or an empty filename is a 400
      that changes nothing and calls nothing; so is an unsupported extension
      once the part has been read. */
  lemma UploadValidation(s: AppState, req: UploadRequest, o: UploadOracles)
    ensures req.document.None? ==>
      UploadAndProcess(s, req, o) == Step(Reply(400, ErrorJson(NoDocumentPartMessage)), s, [])
    ensures req.document.Some? && req.document.value.filename == "" ==>
      UploadAndProcess(s, req, o) == Step(Reply(400, ErrorJson(NoSelectedFileMessage)), s, [])
    ensures (req.document.Some? && req.document.value.filename != "" && o.read.Ok?
             && KindOfName(req.document.value.filename) == OtherFile) ==>
      UploadAndProcess(s, req, o) == Step(Reply(400, ErrorJson(UnsupportedMessage)), s, [])
  {
  }

  /** Extension matching ignores case: "NOTES.PDF" is read as a PDF. */
  lemma UpperCaseExtensionAccepted()
    ensures KindOfName("NOTES.PDF") == PdfFile
  {
    Strings.LastIndexIs("NOTES.PDF", '/', -1);
    Strings.LastIndexIs("NOTES.PDF", '.', 5);
    assert Strings.HasNonDot("NOTES.PDF", 0, 5) by { assert "NOTES.PDF"[0] != '.'; }
    assert Strings.Extension("NOTES.PDF") == ".PDF";
    assert Strings.LowerAscii(".PDF") == ".pdf";
  }

  /** Only the last extension counts: "notes.txt.zip" is unsupported. */
  lemma LastExtensionDecides()
    ensures KindOfName("notes.txt.zip") == OtherFile
  {
    Strings.LastIndexIs("notes.txt.zip", '/', -1);
    Strings.LastIndexIs("notes.txt.zip", '.', 9);
    assert Strings.HasNonDot("notes.txt.zip", 0, 9) by { assert "notes.txt.zip"[0] != '.'; }
    assert Strings.Extension("notes.txt.zip") == ".zip";
    assert Strings.LowerAscii(".zip") == ".zip";
  }

  /** Lower-casing the accepted extensions, written either way. */
  lemma LowerExamples()
    ensures Strings.LowerAscii(".pdf") == ".pdf" && Strings.LowerAscii(".PDF") == ".pdf"
    ensures Strings.LowerAscii(".docx") == ".docx" && Strings.LowerAscii(".DOCX") == ".docx"
    ensures Strings.LowerAscii(".txt") == ".txt" && Strings.LowerAscii(".TXT") == ".txt"
  {
  }

  /** A stem followed by an extension is dispatched on that extension,
      lower-cased. */
  lemma LowerCaseDispatch(stem: string, ext: string, lower: string)
    requires IsStem(stem)
    requires |ext| > 0 && ext[0] == '.'
    requires forall i :: 1 <= i < |ext| ==> ext[i] != '.' && ext[i] != '/'
    requires Strings.LowerAscii(ext) == lower
    ensures KindOfName(stem + ext) == KindOfExtension(lower)
  {
    Strings.ExtensionOfStem(stem, ext);
  }

  /** A stem is a final path component with a character other than '.'. */
  predicate IsStem(stem: string) {
    && (forall i :: 0 <= i < |stem| ==> stem[i] != '/')
    && (exists i :: 0 <= i < |stem| && stem[i] != '.')
  }

  lemma PdfNames(stem: string)
    requires IsStem(stem)
    ensures KindOfName(stem + ".pdf") == PdfFile && KindOfName(stem + ".PDF") == PdfFile
  {
    LowerExamples();
    LowerCaseDispatch(stem, ".pdf", ".pdf");
    LowerCaseDispatch(stem, ".PDF", ".pdf");
  }

  lemma DocxNames(stem: string)
    requires IsStem(stem)
    ensures KindOfName(stem + ".docx") == DocxFile && KindOfName(stem + ".DOCX") == DocxFile
  {
    LowerExamples();
    LowerCaseDispatch(stem, ".docx", ".docx");
    LowerCaseDispatch(stem, ".DOCX", ".docx");
  }

  lemma TxtNames(stem: string)
    requires IsStem(stem)
    ensures KindOfName(stem + ".txt") == TxtFile && KindOfName(stem + ".TXT") == TxtFile
  {
    LowerExamples();
    LowerCaseDispatch(stem, ".txt", ".txt");
    LowerCaseDispatch(stem, ".TXT", ".txt");
  }

  /** The dispatch for every file name made of a stem and one of the
      accepted extensions, in lower or upper case. */
  lemma AcceptedExtensions(stem: string)
    requires IsStem(stem)
    ensures KindOfName(stem + ".pdf") == PdfFile && KindOfName(stem + ".PDF") == PdfFile
    ensures KindOfName(stem + ".docx") == DocxFile && KindOfName(stem + ".DOCX") == DocxFile
    ensures KindOfName(stem + ".txt") == TxtFile && KindOfName(stem + ".TXT") == TxtFile
  {
    PdfNames(stem);
    DocxNames(stem);
    TxtNames(stem);
  }

  /** A blank document is rejected with 400, but only after it has replaced
      the stored text; no service is called. */
  lemma BlankDocumentStoredThenRejected(s: AppState, req: UploadRequest, o: UploadOracles)
    requires req.document.Some? && req.document.value.filename != "" && o.read.Ok?
    requires KindOfName(req.document.value.filename) != OtherFile
    requires Extracted(KindOfName(req.document.value.filename), o).Ok?
    requires Strings.AllSpace(Extracted(KindOfName(req.document.value.filename), o).value, Strings.Python)
    ensures var st := UploadAndProcess(s, req, o);
      && st.reply == Reply(400, ErrorJson(EmptyTextMessage))
      && st.state.documentText == Extracted(KindOfName(req.document.value.filename), o).value
      && st.calls == []
  {
    Strings.TrimEmptyIffAllSpace(Extracted(KindOfName(req.document.value.filename), o).value, Strings.Python);
  }

  /** After a blank upload of non-empty whitespace, `query_ai` no longer
      answers "upload a document first": it sends the whitespace to Gemini. */
  lemma QueryAfterBlankUploadIsAccepted(s: AppState, req: UploadRequest, o: UploadOracles, q: string, qo: QueryOracles)
    requires req.document.Some? && req.document.value.filename != "" && o.read.Ok?
    requires KindOfName(req.document.value.filename) != OtherFile
    requires Extracted(KindOfName(req.document.value.filename), o) == Ok(" ")
    requires q != ""
    ensures Generate(QueryPrompt(" ", q)) in QueryAi(UploadAndProcess(s, req, o).state, Some(q), qo).calls
  {
    BlankDocumentStoredThenRejected(s, req, o);
  }

  /** What an upload needs to succeed: a named file part that can be read,
      an accepted extension, extraction that yields text not all whitespace,
      and both Gemini and gTTS succeeding. */
  predicate UploadSucceeds(req: UploadRequest, o: UploadOracles) {
    && req.document.Some? && req.document.value.filename != "" && o.read.Ok?
    && KindOfName(req.document.value.filename) != OtherFile
    && Extracted(KindOfName(req.document.value.filename), o).Ok?
    && !Strings.AllSpace(Extracted(KindOfName(req.document.value.filename), o).value, Strings.Python)
    && o.generation.Ok? && o.speech.Ok?
  }

  /** An upload gets 200 exactly when everything it needs succeeds. */
  lemma UploadSucceedsIff(s: AppState, req: UploadRequest, o: UploadOracles)
    ensures UploadAndProcess(s, req, o).reply.status == 200 <==> UploadSucceeds(req, o)
  {
    if req.document.Some? && req.document.value.filename != "" && o.read.Ok?
       && KindOfName(req.document.value.filename) != OtherFile
       && Extracted(KindOfName(req.document.value.filename), o).Ok? {
      Strings.TrimEmptyIffAllSpace(Extracted(KindOfName(req.document.value.filename), o).value, Strings.Python);
    }
  }

  /** A successful upload: the extracted text is stored, the acknowledgement
      prompt quotes its first 500 characters, the answer is spoken, the new
      mp3 is registered under its base name, and the reply carries the
      answer and the audio URL of that name. */
  lemma UploadSuccess(s: AppState, req: UploadRequest, o: UploadOracles)
    requires UploadSucceeds(req, o)
    ensures var text := Extracted(KindOfName(req.document.value.filename), o).value;
      var name := Strings.Basename(o.speech.value);
      && UploadAndProcess(s, req, o).reply
           == Reply(200, UploadJson(UploadOkMessage, o.generation.value, AudioRoute + name))
      && UploadAndProcess(s, req, o).state == AppState(text, s.audioFiles[name := o.speech.value])
      && UploadAndProcess(s, req, o).calls == [Generate(AckPrompt(text)), Speak(o.generation.value)]
  {
    UploadSucceedsIff(s, req, o);
  }

  /** The audio URL of a successful upload names a registered file, which
      `serve_audio` sends while it exists on disk. */
  lemma UploadedAudioIsServed(s: AppState, req: UploadRequest, o: UploadOracles, onDisk: set<string>)
    requires UploadSucceeds(req, o)
    requires o.speech.value != "" && o.speech.value in onDisk
    ensures ServeAudio(UploadAndProcess(s, req, o).state, Strings.Basename(o.speech.value), onDisk)
      == Reply(200, AudioFile(o.speech.value, "audio/mpeg"))
  {
    UploadSuccess(s, req, o);
  }

  /** Failures of an upload after validation: 500 with the prefixed message
      of the call that failed. A failing read or extraction leaves the
      globals alone; a failing Gemini or gTTS call comes after the new text
      was stored, so the text stays stored, and nothing is registered. */
  lemma UploadFailures(s: AppState, req: UploadRequest, o: UploadOracles)
    requires req.document.Some? && req.document.value.filename != ""
    ensures o.read.Err? ==>
      UploadAndProcess(s, req, o) == Step(Reply(500, ErrorJson(UploadFailurePrefix + o.read.message)), s, [])
    ensures (o.read.Ok? && KindOfName(req.document.value.filename) != OtherFile
             && Extracted(KindOfName(req.document.value.filename), o).Err?) ==>
      var m := Extracted(KindOfName(req.document.value.filename), o).message;
      UploadAndProcess(s, req, o) == Step(Reply(500, ErrorJson(UploadFailurePrefix + m)), s, [])
    ensures (o.read.Ok? && KindOfName(req.document.value.filename) != OtherFile
             && Extracted(KindOfName(req.document.value.filename), o).Ok?
             && !Strings.AllSpace(Extracted(KindOfName(req.document.value.filename), o).value, Strings.Python)
             && o.generation.Err?) ==>
      var text := Extracted(KindOfName(req.document.value.filename), o).value;
      UploadAndProcess(s, req, o)
        == Step(Reply(500, ErrorJson(UploadFailurePrefix + o.generation.message)),
                s.(documentText := text), [Generate(AckPrompt(text))])
    ensures (o.read.Ok? && KindOfName(req.document.value.filename) != OtherFile
             && Extracted(KindOfName(req.document.value.filename), o).Ok?
             && !Strings.AllSpace(Extracted(KindOfName(req.document.value.filename), o).value, Strings.Python)
             && o.generation.Ok? && o.speech.Err?) ==>
      var text := Extracted(KindOfName(req.document.value.filename), o).value;
      UploadAndProcess(s, req, o)
        == Step(Reply(500, ErrorJson(UploadFailurePrefix + o.speech.message)),
                s.(documentText := text), [Generate(AckPrompt(text)), Speak(o.generation.value)])
  {
    if o.read.Ok? && KindOfName(req.document.value.filename) != OtherFile
       && Extracted(KindOfName(req.document.value.filename), o).Ok? {
      Strings.TrimEmptyIffAllSpace(Extracted(KindOfName(req.document.value.filename), o).value, Strings.Python);
    }
  }

  /** `query_ai`: 400 without a stored document or without a query; otherwise
      the prompt embeds the whole stored text and the query, failures are
      500 with the prefixed message, and success registers the new mp3 and
      returns the answer with its audio URL. */
  lemma QueryBehaviour(s: AppState, query: Option<string>, o: QueryOracles)
    ensures s.documentText == "" ==>
      QueryAi(s, query, o) == Step(Reply(400, ErrorJson(NoDocumentMessage)), s, [])
    ensures s.documentText != "" && !Truthy(query) ==>
      QueryAi(s, query, o) == Step(Reply(400, ErrorJson(NoQueryMessage)), s, [])
    ensures s.documentText != "" && Truthy(query) ==>
      && QueryAi(s, query, o).calls[0] == Generate(QueryPrompt(s.documentText, query.value))
      && (o.generation.Err? ==>
            QueryAi(s, query, o).reply == Reply(500, ErrorJson(QueryFailurePrefix + o.generation.message)))
      && (o.generation.Ok? && o.speech.Err? ==>
            QueryAi(s, query, o).reply == Reply(500, ErrorJson(QueryFailurePrefix + o.speech.message)))
    ensures s.documentText != "" && Truthy(query) && o.generation.Ok? && o.speech.Ok? ==>
      var name := Strings.Basename(o.speech.value);
      && QueryAi(s, query, o).reply == Reply(200, QueryJson(o.generation.value, AudioRoute + name))
      && QueryAi(s, query, o).state == s.(audioFiles := s.audioFiles[name := o.speech.value])
  {
  }

  /** `serve_audio` answers 404 for a name never registered. */
  lemma UnregisteredAudioNotFound(s: AppState, filename: string, onDisk: set<string>)
    requires filename !in s.audioFiles
    ensures ServeAudio(s, filename, onDisk) == Reply(404, ErrorJson(AudioNotFoundMessage))
  {
  }
}

=== FILE: server.dfy ===
/** The Express handler for `POST /api/process` (server.js): validation of
    the multipart request, dispatch on the upload's declared media type,
    prompt assembly with a 15000-character excerpt, the Gemini and
    Text-to-Speech calls, response shaping, and removal of the uploaded file.

    The handler is a pure function of the request and of what each external
    call would return (`Oracles`). Its result records the HTTP response, the
    external calls made in order (file reads, the two service calls and every
    `fs.unlinkSync`), and whether an error escaped the handler after the
    response was sent. Two versions are given: `ProcessAsWritten` follows the
    code line by line, and `Process` removes the upload exactly once on every
    path, which is what the cleanup code evidently aims for. */
module Server {
  import opened Common
  import Strings
  import Base64

  // ---------------------------------------------------------------------------
  // Constants

  /** Characters of extracted text kept in the prompt. */
  const MaxExcerpt: nat := 15000

  const PdfType := "application/pdf"
  const PlainTextType := "text/plain"
  const DocxType := "application/vnd.openxmlformats-officedocument.wordprocessingml.document"

  const NoFileMessage := "No study material uploaded."
  const NoQueryMessage := "No user query provided."
  const DocxMessage := "Word documents (.docx) are not yet fully supported in this example. Please upload PDF or plain text."
  const UnsupportedMessage := "Unsupported file type. Please upload PDF or plain text."
  const FailureMessage := "Failed to process study material or generate response."

  const PromptHead := "Based on the following study material:\n\n---\n"
  const PromptMiddle := " \n--- (Content truncated if very long)\n\nNow, "

  // ---------------------------------------------------------------------------
  // Requests, external calls and responses

  /** What multer stored: where the bytes are and the declared media type. */
  datatype UploadedFile = UploadedFile(path: string, mimetype: string)

  /** `req.file` and `req.body.userQuery`; either may be absent. */
  datatype ProcessRequest = ProcessRequest(file: Option<UploadedFile>, userQuery: Option<string>)

  /** What the external calls of one request return. `extraction` stands for
      `fs.readFileSync` (and `pdf-parse` for PDFs) in whichever branch runs. */
  datatype Oracles = Oracles(
    extraction: Result<string>,
    generation: Result<string>,
    synthesis: Result<seq<byte>>)

  /** How the handler treats a declared media type. */
  datatype DocKind = Pdf | PlainText | Docx | Unsupported

  /** One part of a Gemini content entry. */
  datatype Part = Part(text: string)

  /** One entry of the `contents` list sent to `generateContent`. */
  datatype Content = Content(role: string, parts: seq<Part>)

  /** The Text-to-Speech request: input text and a fixed voice and encoding. */
  datatype SpeechRequest = SpeechRequest(text: string, languageCode: string, ssmlGender: string, audioEncoding: string)

  /** An external call made by the handler, in the order made. */
  datatype Call =
    | Extract(path: string, kind: DocKind)
    | GenerateContent(contents: seq<Content>)
    | SynthesizeSpeech(request: SpeechRequest)
    | Unlink(path: string)

  /** The JSON bodies the handler sends. */
  datatype Body =
    | ErrorBody(error: string)
    | FailureBody(error: string, details: string)
    | AnswerBody(aiResponse: string, audio: string)

  datatype Response = Response(status: int, body: Body)

  /** The outcome of one request: the response, the calls made, and whether
      an exception escaped the handler (after the response was sent). */
  datatype Handled = Handled(response: Response, calls: seq<Call>, escaped: bool)

  // ---------------------------------------------------------------------------
  // Pieces of the handler

  /** The mimetype comparisons of the if/else-if chain. */
  function KindOf(mimetype: string): (k: DocKind)
    ensures k == Pdf <==> mimetype == PdfType
    ensures k == PlainText <==> mimetype == PlainTextType
    ensures k == Docx <==> mimetype == DocxType
  {
    if mimetype == PdfType then Pdf
    else if mimetype == PlainTextType then PlainText
    else if mimetype == DocxType then Docx
    else Unsupported
  }

  /** `documentText.substring(0, 15000)`. */
  function Excerpt(text: string): (e: string)
    ensures |e| == Min(|text|, MaxExcerpt)
    ensures Strings.IsPrefix(e, text)
    ensures |text| <= MaxExcerpt ==> e == text
  {
    Strings.Take(text, MaxExcerpt)
  }

  /** The request part of the prompt: a header, the excerpt, a truncation
      marker, and the query after "Now, ". */
  function FullPrompt(text: string, query: string): (p: string)
    ensures Strings.IsPrefix(PromptHead, p)
    ensures Strings.IsSuffix("Now, " + query, p)
    ensures |p| == |PromptHead| + Min(|text|, MaxExcerpt) + |PromptMiddle| + |query|
  {
    var p := PromptHead + Excerpt(text) + PromptMiddle + query;
    assert p[..|PromptHead|] == PromptHead;
    assert p[|p| - |"Now, " + query|..] == "Now, " + query;
    p
  }

  /** The `contents` argument of `generateContent`: one user entry whose
      parts are the persona and then the request prompt. */
  function AiContents(persona: string, text: string, query: string): (c: seq<Content>)
    ensures |c| == 1 && c[0].role == "user"
    ensures c[0].parts == [Part(persona), Part(FullPrompt(text, query))]
  {
    [Content("user", [Part(persona), Part(FullPrompt(text, query))])]
  }

  /** The Text-to-Speech request for an answer. */
  function SpeechRequestFor(answer: string): (r: SpeechRequest)
    ensures r.text == answer
  {
    SpeechRequest(answer, "en-US", "NEUTRAL", "MP3")
  }

  /** The 500 response of the catch block. */
  function Failure(message: string): Response {
    Response(500, FailureBody(FailureMessage, message))
  }

  /** What the `try` block does for a validated request: the response, the
      calls made, and whether the upload was already unlinked inside it. */
  datatype TryOutcome = TryOutcome(response: Response, calls: seq<Call>, unlinked: bool)

  /** The body of the `try` block (server.js lines 58-106) and its `catch`. */
  function TryBlock(f: UploadedFile, query: string, persona: string, o: Oracles): (t: TryOutcome)
    ensures t.unlinked <==> KindOf(f.mimetype) in {Docx, Unsupported}
    ensures t.unlinked ==> t.calls == [Unlink(f.path)] && t.response.status == 400
    ensures !t.unlinked ==> forall i :: 0 <= i < |t.calls| ==> !t.calls[i].Unlink?
    ensures t.response.status == 200 <==>
      !t.unlinked && o.extraction.Ok? && o.generation.Ok? && o.synthesis.Ok?
  {
    var kind := KindOf(f.mimetype);
    if kind == Docx then
      TryOutcome(Response(400, ErrorBody(DocxMessage)), [Unlink(f.path)], true)
    else if kind == Unsupported then
      TryOutcome(Response(400, ErrorBody(UnsupportedMessage)), [Unlink(f.path)], true)
    else
      var read := [Extract(f.path, kind)];
      match o.extraction
      case Err(m) => TryOutcome(Failure(m), read, false)
      case Ok(text) =>
        var asked := read + [GenerateContent(AiContents(persona, text, query))];
        match o.generation
        case Err(m) => TryOutcome(Failure(m), asked, false)
        case Ok(answer) =>
          var spoken := asked + [SynthesizeSpeech(SpeechRequestFor(answer))];
          match o.synthesis
          case Err(m) => TryOutcome(Failure(m), spoken, false)
          case Ok(audio) =>
            TryOutcome(Response(200, AnswerBody(answer, Base64.Encode(audio))), spoken, false)
  }

  /** How many times the handler unlinked the given path. */
  function UnlinkCount(calls: seq<Call>, path: string): (n: nat)
    ensures n <= |calls|
  {
    if |calls| == 0 then 0
    else UnlinkCount(calls[..|calls| - 1], path) + (if calls[|calls| - 1] == Unlink(path) then 1 else 0)
  }

  lemma UnlinkCountAppend(a: seq<Call>, b: seq<Call>, path: string)
    ensures UnlinkCount(a + b, path) == UnlinkCount(a, path) + UnlinkCount(b, path)
    decreases |b|
  {
    if |b| > 0 {
      assert (a + b)[..|a + b| - 1] == a + b[..|b| - 1];
      UnlinkCountAppend(a, b[..|b| - 1], path);
    } else {
      assert a + b == a;
    }
  }

  lemma {:induction false} NoUnlinkCount(calls: seq<Call>, path: string)
    requires forall i :: 0 <= i < |calls| ==> !calls[i].Unlink?
    ensures UnlinkCount(calls, path) == 0
    decreases |calls|
  {
    if |calls| > 0 {
      NoUnlinkCount(calls[..|calls| - 1], path);
    }
  }

  // ---------------------------------------------------------------------------
  // The handler as written

  /** server.js lines 48-117 as written: the validation returns come before
      the `try`, the docx and unsupported branches unlink the upload and
      return, and the `finally` unlinks it again. The second `unlinkSync` of
      an already removed file throws ENOENT, which escapes the handler after
      the 400 has been sent. */
  function ProcessAsWritten(req: ProcessRequest, persona: string, o: Oracles): (h: Handled)
    ensures req.file.None? ==> h.calls == [] && h.response == Response(400, ErrorBody(NoFileMessage))
    ensures req.file.Some? && !Truthy(req.userQuery) ==>
      h.calls == [] && h.response == Response(400, ErrorBody(NoQueryMessage))
    ensures h.escaped <==>
      req.file.Some? && Truthy(req.userQuery) && KindOf(req.file.value.mimetype) in {Docx, Unsupported}
    ensures req.file.Some? && Truthy(req.userQuery) && KindOf(req.file.value.mimetype) in {Pdf, PlainText} ==>
      UnlinkCount(h.calls, req.file.value.path) == 1 && h.calls[|h.calls| - 1] == Unlink(req.file.value.path)
  {
    if req.file.None? then
      Handled(Response(400, ErrorBody(NoFileMessage)), [], false)
    else if !Truthy(req.userQuery) then
      Handled(Response(400, ErrorBody(NoQueryMessage)), [], false)
    else
      var f := req.file.value;
      var t := TryBlock(f, req.userQuery.value, persona, o);
      if !t.unlinked then
        NoUnlinkCount(t.calls, f.path);
        UnlinkCountAppend(t.calls, [Unlink(f.path)], f.path);
        assert [Unlink(f.path)][..0] == [];
        Handled(t.response, t.calls + [Unlink(f.path)], false)
      else
        Handled(t.response, t.calls + [Unlink(f.path)], true)
  }

  /** The as-written handler unlinks a docx or unsupported upload twice, and
      the second unlink finds the file gone. */
  lemma AsWrittenUnlinksTwice(req: ProcessRequest, persona: string, o: Oracles)
    requires req.file.Some? && Truthy(req.userQuery)
    requires KindOf(req.file.value.mimetype) in {Docx, Unsupported}
    ensures var h := ProcessAsWritten(req, persona, o);
      && h.response.status == 400
      && UnlinkCount(h.calls, req.file.value.path) == 2
      && h.escaped
  {
    var f := req.file.value;
    assert ProcessAsWritten(req, persona, o).calls == [Unlink(f.path)] + [Unlink(f.path)];
    UnlinkCountAppend([Unlink(f.path)], [Unlink(f.path)], f.path);
    assert [Unlink(f.path)][..0] == [];
  }

  /** A concrete instance: a zip archive with a query. */
  lemma AsWrittenZipExample()
    ensures var h := ProcessAsWritten(
        ProcessRequest(Some(UploadedFile("uploads/a1", "application/zip")), Some("Summarize this.")),
        "persona", Oracles(Ok("ignored"), Ok("ignored"), Ok([])));
      && h.response == Response(400, ErrorBody(UnsupportedMessage))
      && h.calls == [Unlink("uploads/a1"), Unlink("uploads/a1")]
      && h.escaped
  {
  }

  /** The as-written handler leaves an upload with an empty query in place. */
  lemma AsWrittenLeaksOnEmptyQuery(f: UploadedFile, persona: string, o: Oracles)
    ensures var h := ProcessAsWritten(ProcessRequest(Some(f), Some("")), persona, o);
      && h.response == Response(400, ErrorBody(NoQueryMessage))
      && UnlinkCount(h.calls, f.path) == 0
  {
  }

  // ---------------------------------------------------------------------------
  // The handler with single cleanup

  /** `POST /api/process` with the upload removed exactly once on every exit
      path: the validation returns unlink the upload when there is one, the
      docx and unsupported branches leave removal to the `finally`, and
      nothing escapes. Responses and service calls are those of the code. */
  function Process(req: ProcessRequest, persona: string, o: Oracles): (h: Handled)
    ensures req.file.None? ==> h.calls == [] && h.response == Response(400, ErrorBody(NoFileMessage))
    ensures req.file.Some? && !Truthy(req.userQuery) ==>
      h.calls == [Unlink(req.file.value.path)] && h.response == Response(400, ErrorBody(NoQueryMessage))
    ensures req.file.Some? ==> UnlinkCount(h.calls, req.file.value.path) == 1
    ensures req.file.Some? ==> h.calls[|h.calls| - 1] == Unlink(req.file.value.path)
    ensures !h.escaped
    ensures h.response.status in {200, 400, 500}
  {
    if req.file.None? then
      Handled(Response(400, ErrorBody(NoFileMessage)), [], false)
    else
      var f := req.file.value;
      if !Truthy(req.userQuery) then
        Handled(Response(400, ErrorBody(NoQueryMessage)), [Unlink(f.path)], false)
      else
        var t := TryBlock(f, req.userQuery.value, persona, o);
        var calls := if t.unlinked then [] else t.calls;
        NoUnlinkCount(calls, f.path);
        UnlinkCountAppend(calls, [Unlink(f.path)], f.path);
        assert [Unlink(f.path)][..0] == [];
        Handled(t.response, calls + [Unlink(f.path)], false)
  }

  // ---------------------------------------------------------------------------
  // Properties of the handler

  /** Both versions send the same response to every request. They make the
      same calls when there is no file and on the PDF and plain-text paths,
      where the `finally` is the only unlink; they differ on the empty query
      (no unlink as written) and on docx and unsupported uploads (two
      unlinks as written). */
  lemma SameResponses(req: ProcessRequest, persona: string, o: Oracles)
    ensures Process(req, persona, o).response == ProcessAsWritten(req, persona, o).response
    ensures req.file.None? || (Truthy(req.userQuery) && KindOf(req.file.value.mimetype) in {Pdf, PlainText}) ==>
      Process(req, persona, o).calls == ProcessAsWritten(req, persona, o).calls
  {
  }

  /** Only PDF and plain-text uploads reach the prompt: the docx and every
      other media type get their own 400 and no service is called. */
  lemma OnlyPdfAndTextReachPrompt(req: ProcessRequest, persona: string, o: Oracles)
    requires req.file.Some? && Truthy(req.userQuery)
    ensures var h := Process(req, persona, o); var k := KindOf(req.file.value.mimetype);
      && (k == Docx ==> h.response == Response(400, ErrorBody(DocxMessage)) && |h.calls| == 1)
      && (k == Unsupported ==> h.response == Response(400, ErrorBody(UnsupportedMessage)) && |h.calls| == 1)
      && (k in {Pdf, PlainText} ==> h.calls[0] == Extract(req.file.value.path, k))
  {
  }

  /** Every non-empty query passes validation, whitespace-only ones
      included: there is no trim on the server. A PDF or plain-text upload
      then goes on to extraction. */
  lemma BlankQueryAccepted(f: UploadedFile, q: string, persona: string, o: Oracles)
    requires q != ""
    ensures Process(ProcessRequest(Some(f), Some(q)), persona, o).response.body != ErrorBody(NoQueryMessage)
    ensures KindOf(f.mimetype) in {Pdf, PlainText} ==>
      Process(ProcessRequest(Some(f), Some(q)), persona, o).calls[0] == Extract(f.path, KindOf(f.mimetype))
  {
  }

  /** Success: status 200 exactly when extraction, Gemini and TTS all succeed
      on a PDF or plain-text upload with a query; the body then carries the
      answer verbatim and the base64 of the audio, and Gemini was sent one
      user entry with the persona and then the prompt built from the text. */
  lemma SuccessShape(req: ProcessRequest, persona: string, o: Oracles)
    ensures var h := Process(req, persona, o);
      h.response.status == 200 <==>
        && req.file.Some? && Truthy(req.userQuery)
        && KindOf(req.file.value.mimetype) in {Pdf, PlainText}
        && o.extraction.Ok? && o.generation.Ok? && o.synthesis.Ok?
    ensures var h := Process(req, persona, o);
      h.response.status == 200 ==>
        && h.response.body == AnswerBody(o.generation.value, Base64.Encode(o.synthesis.value))
        && h.calls == [
             Extract(req.file.value.path, KindOf(req.file.value.mimetype)),
             GenerateContent(AiContents(persona, o.extraction.value, req.userQuery.value)),
             SynthesizeSpeech(SpeechRequestFor(o.generation.value)),
             Unlink(req.file.value.path)]
  {
  }

  /** Every reply of the handler other than 200 carries one of its fixed,
      non-empty error messages in `error`. */
  lemma ErrorBodies(req: ProcessRequest, persona: string, o: Oracles)
    requires Process(req, persona, o).response.status != 200
    ensures var body := Process(req, persona, o).response.body;
      && (body.ErrorBody? || body.FailureBody?)
      && body.error in {NoFileMessage, NoQueryMessage, DocxMessage,
                        UnsupportedMessage, FailureMessage}
  {
    SuccessShape(req, persona, o);
  }

  /** Failure of any external call after validation: 500 with the fixed
      error and the message of the first call that failed, no audio, and
      no service called after the failing one. */
  lemma FailureShape(req: ProcessRequest, persona: string, o: Oracles)
    requires req.file.Some? && Truthy(req.userQuery)
    requires KindOf(req.file.value.mimetype) in {Pdf, PlainText}
    ensures var h := Process(req, persona, o); var f := req.file.value;
      o.extraction.Err? ==>
        && h.response == Failure(o.extraction.message)
        && h.calls == [Extract(f.path, KindOf(f.mimetype)), Unlink(f.path)]
    ensures var h := Process(req, persona, o); var f := req.file.value;
      o.extraction.Ok? && o.generation.Err? ==>
        && h.response == Failure(o.generation.message)
        && h.calls == [Extract(f.path, KindOf(f.mimetype)),
                       GenerateContent(AiContents(persona, o.extraction.value, req.userQuery.value)),
                       Unlink(f.path)]
    ensures var h := Process(req, persona, o); var f := req.file.value;
      o.extraction.Ok? && o.generation.Ok? && o.synthesis.Err? ==>
        && h.response == Failure(o.synthesis.message)
        && h.calls == [Extract(f.path, KindOf(f.mimetype)),
                       GenerateContent(AiContents(persona, o.extraction.value, req.userQuery.value)),
                       SynthesizeSpeech(SpeechRequestFor(o.generation.value)),
                       Unlink(f.path)]
  {
  }

  /** The prompt quotes the excerpt right after its header, and the excerpt
      is the first 15000 characters of the document, or all of a shorter one. */
  lemma PromptBounds(text: string, query: string)
    ensures var p := FullPrompt(text, query);
      && p[|PromptHead|..|PromptHead| + |Excerpt(text)|] == Excerpt(text)
      && |Excerpt(text)| <= MaxExcerpt
      && (|text| > MaxExcerpt ==> |Excerpt(text)| == MaxExcerpt)
  {
    var p := FullPrompt(text, query);
    assert p == PromptHead + Excerpt(text) + PromptMiddle + query;
  }

  /** Text beyond the first 15000 characters does not influence the prompt. */
  lemma PromptIgnoresTail(a: string, b: string, query: string)
    requires |a| >= MaxExcerpt && |b| >= MaxExcerpt
    requires a[..MaxExcerpt] == b[..MaxExcerpt]
    ensures FullPrompt(a, query) == FullPrompt(b, query)
  {
  }

  /** The prompt determines the query: different queries give different prompts. */
  lemma PromptDeterminesQuery(text: string, q1: string, q2: string)
    requires FullPrompt(text, q1) == FullPrompt(text, q2)
    ensures q1 == q2
  {
    var p := FullPrompt(text, q1);
    var n := |PromptHead| + |Excerpt(text)| + |PromptMiddle|;
    assert p[n..] == q1;
    assert FullPrompt(text, q2)[n..] == q2;
  }
}

=== FILE: strings.dfy ===
/** String operations the handlers rely on, each with the exact semantics of
    the JavaScript or Python built-in it stands for: prefix truncation
    (`substring(0, n)`, `s[:n]`), whitespace trimming (`String.prototype.trim`,
    `str.strip`), ASCII lower-casing, and the POSIX `os.path` helpers
    `basename` and `splitext`. */
module Strings {
  import opened Common

  predicate IsPrefix(p: string, s: string) {
    |p| <= |s| && p == s[..|p|]
  }

  predicate IsSuffix(p: string, s: string) {
    |p| <= |s| && p == s[|s| - |p|..]
  }

  /** `s.substring(0, n)` in JavaScript and `s[:n]` in Python, for n >= 0:
      the first n characters, or all of s when it is shorter. */
  function Take(s: string, n: nat): (r: string)
    ensures |r| == Min(|s|, n)
    ensures IsPrefix(r, s)
  {
    if |s| <= n then s else s[..n]
  }

  // ---------------------------------------------------------------------------
  // Whitespace

  /** The characters `String.prototype.trim` removes: ECMAScript WhiteSpace
      (TAB, VT, FF, SPACE, NBSP, ZWNBSP and the Zs category) and
      LineTerminator (LF, CR, LS, PS). */
  predicate IsJsSpace(c: char) {
    || c == '\t' || c == '\n' || c == '\U{000B}' || c == '\U{000C}' || c == '\r'
    || c == ' ' || c == '\U{00A0}' || c == '\U{1680}'
    || ('\U{2000}' <= c <= '\U{200A}')
    || c == '\U{2028}' || c == '\U{2029}' || c == '\U{202F}' || c == '\U{205F}'
    || c == '\U{3000}' || c == '\U{FEFF}'
  }

  /** The characters Python's `str.isspace` accepts, which `str.strip()` removes:
      0x09-0x0D, the information separators 0x1C-0x1F, SPACE, NEL, NBSP,
      the Zs category, LS and PS. Unlike JavaScript it includes 0x1C-0x1F and
      NEL and excludes ZWNBSP. */
  predicate IsPySpace(c: char) {
    || ('\t' <= c <= '\r')
    || ('\U{001C}' <= c <= '\U{001F}')
    || c == ' ' || c == '\U{0085}' || c == '\U{00A0}' || c == '\U{1680}'
    || ('\U{2000}' <= c <= '\U{200A}')
    || c == '\U{2028}' || c == '\U{2029}' || c == '\U{202F}' || c == '\U{205F}'
    || c == '\U{3000}'
  }

  /** Whose notion of whitespace a trim uses. */
  datatype Flavor = JavaScript | Python

  predicate IsSpace(f: Flavor, c: char) {
    match f
    case JavaScript => IsJsSpace(c)
    case Python => IsPySpace(c)
  }

  /** Every character of s is whitespace in the sense of f (vacuous for ""). */
  predicate AllSpace(s: string, f: Flavor) {
    forall i :: 0 <= i < |s| ==> IsSpace(f, s[i])
  }

  /** The number of whitespace characters s starts with. */
  function LeadingSpace(s: string, f: Flavor): (n: nat)
    ensures n <= |s|
    ensures forall i :: 0 <= i < n ==> IsSpace(f, s[i])
    ensures n < |s| ==> !IsSpace(f, s[n])
    decreases |s|
  {
    if |s| > 0 && IsSpace(f, s[0]) then 1 + LeadingSpace(s[1..], f) else 0
  }

  /** The position where the whitespace s ends with begins. */
  function TrailingStart(s: string, f: Flavor): (n: nat)
    ensures n <= |s|
    ensures forall i :: n <= i < |s| ==> IsSpace(f, s[i])
    ensures n > 0 ==> !IsSpace(f, s[n - 1])
    decreases |s|
  {
    if |s| > 0 && IsSpace(f, s[|s| - 1]) then TrailingStart(s[..|s| - 1], f) else |s|
  }

  /** The bounds [lo, hi) of what remains of s once leading and then trailing
      whitespace are removed. */
  function TrimBounds(s: string, f: Flavor): (b: (nat, nat))
    ensures b.0 <= b.1 <= |s|
    ensures forall i :: 0 <= i < b.0 ==> IsSpace(f, s[i])
    ensures forall i :: b.1 <= i < |s| ==> IsSpace(f, s[i])
    ensures b.0 < b.1 ==> !IsSpace(f, s[b.0]) && !IsSpace(f, s[b.1 - 1])
  {
    var lo := LeadingSpace(s, f);
    var t := s[lo..];
    var n := TrailingStart(t, f);
    assert forall i :: lo + n <= i < |s| ==> s[i] == t[i - lo];
    (lo, lo + n)
  }

  /** s without leading and trailing whitespace: what lies between a blank
      prefix and a blank suffix of s, and neither end of it is whitespace. */
  function Trim(s: string, f: Flavor): (r: string)
    ensures var (lo, hi) := TrimBounds(s, f); r == s[lo..hi]
    ensures r != "" ==> !IsSpace(f, r[0]) && !IsSpace(f, r[|r| - 1])
  {
    var (lo, hi) := TrimBounds(s, f);
    s[lo..hi]
  }

  /** Trimming yields "" exactly when the whole string is whitespace; this is
      what `if (!s.trim())` and `if not s.strip()` test. */
  lemma TrimEmptyIffAllSpace(s: string, f: Flavor)
    ensures Trim(s, f) == "" <==> AllSpace(s, f)
  {
    var (lo, hi) := TrimBounds(s, f);
    if lo == hi {
      forall i | 0 <= i < |s| ensures IsSpace(f, s[i]) {
        if i >= lo {
          assert i >= hi;
        }
      }
    } else {
      assert Trim(s, f)[0] == s[lo];
    }
  }

  /** `s.trim()` in JavaScript. */
  function JsTrim(s: string): string {
    Trim(s, JavaScript)
  }

  /** `s.strip()` in Python. */
  function PyStrip(s: string): string {
    Trim(s, Python)
  }

  // ---------------------------------------------------------------------------
  // Case and paths

  function LowerChar(c: char): char {
    if 'A' <= c <= 'Z' then (c as int + 32) as char else c
  }

  /** Lower-casing of the ASCII letters; other characters are kept. */
  function LowerAscii(s: string): (r: string)
    ensures |r| == |s|
    ensures forall i :: 0 <= i < |s| ==>
      if 'A' <= s[i] <= 'Z' then r[i] as int == s[i] as int + 32 else r[i] == s[i]
  {
    seq(|s|, i requires 0 <= i < |s| => LowerChar(s[i]))
  }

  /** The index of the last occurrence of c in s, or -1 (`rfind`). */
  function LastIndex(s: string, c: char): (r: int)
    ensures -1 <= r < |s|
    ensures r >= 0 ==> s[r] == c
    ensures forall i :: r < i < |s| ==> s[i] != c
    decreases |s|
  {
    if |s| == 0 then -1
    else if s[|s| - 1] == c then |s| - 1
    else LastIndex(s[..|s| - 1], c)
  }

  /** LastIndex is determined by its contract: k is the last position of c. */
  lemma LastIndexIs(s: string, c: char, k: int)
    requires -1 <= k < |s|
    requires k >= 0 ==> s[k] == c
    requires forall i :: k < i < |s| ==> s[i] != c
    ensures LastIndex(s, c) == k
  {
  }

  /** `os.path.basename` on POSIX: the part after the last '/', which is
      the whole path when it has none. */
  function Basename(p: string): (r: string)
    ensures IsSuffix(r, p)
    ensures forall i :: 0 <= i < |r| ==> r[i] != '/'
  {
    p[LastIndex(p, '/') + 1..]
  }

  /** A base name shorter than its path is the part right after a '/'. */
  lemma BasenameAfterSlash(p: string)
    ensures |Basename(p)| < |p| ==> p[|p| - |Basename(p)| - 1] == '/'
  {
  }

  /** The base name of a directory joined with a name without '/' is that name. */
  lemma {:induction false} BasenameOfJoin(dir: string, name: string)
    requires forall i :: 0 <= i < |name| ==> name[i] != '/'
    ensures Basename(dir + "/" + name) == name
  {
    var p := dir + "/" + name;
    LastIndexIs(p, '/', |dir|);
    assert p[|dir| + 1..] == name;
  }

  /** Whether some position k with lo <= k < hi holds a character other than '.'. */
  predicate HasNonDot(p: string, lo: int, hi: int)
    requires 0 <= lo && hi <= |p|
  {
    exists k :: lo <= k < hi && p[k] != '.'
  }

  /** `os.path.splitext(p)[1]` on POSIX: from the last '.' of the final path
      component, provided that dot is not part of the component's leading
      dots; "" otherwise (so ".txt" and "a/.txt" have no extension). */
  function Extension(p: string): (r: string)
    ensures IsSuffix(r, p)
    ensures r != "" ==> r[0] == '.' && forall i :: 1 <= i < |r| ==> r[i] != '.' && r[i] != '/'
    ensures r != "" <==> exists k :: LastIndex(p, '/') < k < |p| && p[k] == '.' && HasNonDot(p, LastIndex(p, '/') + 1, k)
  {
    var sep := LastIndex(p, '/');
    var dot := LastIndex(p, '.');
    if dot > sep && HasNonDot(p, sep + 1, dot) then p[dot..] else ""
  }

  /** A file name of a final component that holds a character other than
      '.' (its stem), then an extension: a '.' and no further '.' or '/'.
      `splitext` finds exactly that extension, whatever dots the stem holds. */
  lemma {:induction false} ExtensionOfStem(stem: string, ext: string)
    requires forall i :: 0 <= i < |stem| ==> stem[i] != '/'
    requires exists i :: 0 <= i < |stem| && stem[i] != '.'
    requires |ext| > 0 && ext[0] == '.'
    requires forall i :: 1 <= i < |ext| ==> ext[i] != '.' && ext[i] != '/'
    ensures Extension(stem + ext) == ext
  {
    var p := stem + ext;
    LastIndexIs(p, '/', -1);
    LastIndexIs(p, '.', |stem|);
    var j :| 0 <= j < |stem| && stem[j] != '.';
    assert p[j] == stem[j];
    assert HasNonDot(p, 0, |stem|);
    assert p[|stem|..] == ext;
  }

  /** Edge cases of `splitext`: case is kept, only the last dot counts, and a
      leading dot or a dot in a directory name does not start an extension. */
  lemma ExtensionExamples()
    ensures Extension("notes.PDF") == ".PDF"
    ensures Extension("archive.tar.txt") == ".txt"
    ensures Extension(".txt") == ""
    ensures Extension("..txt") == ""
    ensures Extension("dir.d/notes") == ""
    ensures Extension("notes") == ""
  {
    LastIndexIs("notes.PDF", '/', -1);
    LastIndexIs("notes.PDF", '.', 5);
    assert HasNonDot("notes.PDF", 0, 5) by { assert "notes.PDF"[0] != '.'; }
    LastIndexIs("archive.tar.txt", '/', -1);
    LastIndexIs("archive.tar.txt", '.', 11);
    assert HasNonDot("archive.tar.txt", 0, 11) by { assert "archive.tar.txt"[0] != '.'; }
    LastIndexIs(".txt", '/', -1);
    LastIndexIs(".txt", '.', 0);
    LastIndexIs("..txt", '/', -1);
    LastIndexIs("..txt", '.', 1);
    LastIndexIs("dir.d/notes", '/', 5);
    LastIndexIs("dir.d/notes", '.', 3);
    LastIndexIs("notes", '/', -1);
    LastIndexIs("notes", '.', -1);
  }
}
